=== FILE: README.md ===
# Daily planner: slot grid reconciliation and calendar layout

This project models, in Dafny, the two pieces of logic in a small React daily
planner that go beyond rendering:

- **The schedule grid** (`src/App.jsx`). The grid has 38 fixed half-hour slots,
  from 05:00 to the 23:00–24:00 row. It is backed by one shared list of
  blocks. A block is anchored either to a grid row, through an identifier
  `slot-<n>`, or to explicit start and end dates. The model covers:
  - the slot arithmetic: `timeToSlot`, `slotIndexToDate`, `range`, `hoursRange`;
  - `ensureTimedFieldsFromSlot`, which derives dates for slot blocks;
  - the `slotMap` index and `findBlockForSlot`;
  - `upsertBlockForSlot`;
  - the blur clean-up;
  - the attach button and the attachment add/remove updates;
  - `PriorityList.update`;
  - the `timeKey` day name.
- **The calendar view** (`src/components/CalendarView.jsx`). The model covers:
  - the week arithmetic (`startOfWeek`, `addDays`) and day/week prev/next navigation;
  - `clamp`, `minutesSinceMidnight` and `whenToSlotIndex`;
  - the construction of one timed event per visible day, with `top`/`bottom`/`height` percentages;
  - the all-day row filter;
  - `packOverlaps`, the greedy first-fit assignment of overlapping events to side-by-side lanes.

Modelling choices:

- A JavaScript `Date` is a `Moment(day, minute)`: a day number (day 0 is Thursday 1 January 1970) and a minute of that day.
  - `isSameDay` becomes equality of day numbers.
  - `setMinutes` with a count of a day or more rolls into later days.
- A block's identifier is the tagged value `SlotId(n) | OtherId(name)`, not a string to be parsed.
- Its `start`/`end` fields are `Absent`, a bare slot number, or a date.
- Percentages are exact `real`s.
- The code that changes things step by step is imperative Dafny:
  - the `slotMap` loop;
  - the `PriorityList.update` array copy;
  - the per-day builder that pushes into lists held in a map;
  - `packOverlaps`, with its `lanes` array, its `placed` flag and the final lane-number assignment into an array.
- The list rebuilds done with `findIndex`/`map`/`filter`/spread are functions.

Where a written description of the planner and its code disagree, the model follows the code:

- **Slot count.** The window 05:00–23:00 is sometimes said to hold 36 slots. The code counts `(23 - 5 + 1) * 2 = 38`, because the 23:00 row is included (`Slots.GridShowsEachSlotOnce`).
- **Idempotence.** `ensureTimedFieldsFromSlot` is said to be idempotent. It is idempotent exactly when the block covers the single slot its identifier names. The second pass reads the slot from the identifier, because the dates written by the first pass are not numbers. That single-slot shape is the only one the grid creates (`Slots.EnsureTimedIdempotentIff`).
- **Attachments on blur.** Blocks holding attachments are said to survive the blur clean-up. The code deletes them (see Findings).

## Model

| member | source | states |
|---|---|---|
| Dates.AtMinutes | src/App.jsx:288-292 | midnight plus a minute count lands on the instant `day*1440 + minutes`; counts of one day or more roll into the next day |
| Dates.IsSameDay | src/App.jsx:20-22 | two instants are on the same day iff their instants divided by the minutes of a day agree |
| Dates.Weekday | src/components/CalendarView.jsx:6 | `getDay()` of a day number lies in 0..6 |
| Dates.AddDays | src/components/CalendarView.jsx:11-15 | shifting by n days moves the instant by exactly n days and keeps the same day only for n = 0 |
| Lists.FindIndex | src/App.jsx:366 | `findIndex` returns the first position satisfying the test, and none exactly when no position does |
| Lists.FindIndexIsFirst | src/App.jsx:366 | a position that passes the test with no passing position before it is what `findIndex` returns |
| Lists.SwappedPairIsNoSubsequence | src/App.jsx:423-430 | the order relation used for `filter` is strict: two distinct elements in swapped order are not a subsequence of the pair |
| Lists.Filter | src/App.jsx:423-430 | `filter` keeps only elements passing the test, keeps each passing element as many times as it occurs, and keeps the input order (the result is a subsequence of the input) |
| Lists.FilterSnoc | src/App.jsx:330-331 | filtering a list with one element added at the end filters the list, then keeps or drops that element |
| Text.Trim | src/App.jsx:417 | `trim()` is the input with a blank prefix and a blank suffix cut off; the result neither starts nor ends with JavaScript whitespace, and a string without surrounding whitespace is unchanged |
| Text.TrimEmptyIffBlank | src/App.jsx:417-418 | `trim()` yields the empty string exactly when every character is JavaScript whitespace |
| DayKey.TimeKey | src/App.jsx:11-16 | for a month and date below 100 the key ends in a dash, the two-digit month, a dash and the two-digit date, whose digits read back as the month and date |
| DayKey.TimeKeyShape | src/App.jsx:11-16 | for a four-digit year the key is 10 characters: digits, a dash at 4, two digits, a dash at 7, two digits |
| DayKey.ParseTimeKeyOfTimeKey | src/App.jsx:11-16 | the zero padding loses nothing: reading a key back gives year, month and day |
| DayKey.TimeKeyOfParseTimeKey | src/App.jsx:11-16 | every well-formed key whose year does not start with 0 is the key of the date it reads as |
| Slots.Range | src/App.jsx:17 | `range(n)` is 0..n-1, empty for n <= 0 |
| Slots.HoursRange | src/App.jsx:18 | `hoursRange(s, e)` lists s..e inclusive |
| Slots.TimeToSlot | src/App.jsx:312-315 | always a slot in [0, 37]; on the grid's :00/:30 cells it is `2*(hour-5) + min/30`; clamped below and above |
| Slots.GridShowsEachSlotOnce | src/App.jsx:307-310 | there are 38 slots, and the grid's cells show slots 0..37 in order, each once |
| Slots.SlotIndexToDate | src/App.jsx:286-294 | slot i starts at 05:00 + 30i on the day; slot 38 (the end of the last slot) is midnight of the next day |
| Slots.SlotStartRoundTrip | src/App.jsx:286-294 | reading a slot start's hour and minute back through `timeToSlot` gives the slot |
| Slots.SlotIndexToDateInjective | src/App.jsx:286-294 | distinct slot indices start at distinct times |
| Slots.EnsureTimedFieldsFromSlot | src/App.jsx:295-303 | non-slot blocks come back unchanged; a slot block keeps every field but start, end and all-day, starts at its first slot and lasts (end-start+1) half hours |
| Slots.EnsureTimedIdempotentIff | src/App.jsx:295-303 | applying it twice equals applying it once if and only if the block is not a slot block or covers exactly the slot its identifier names |
| SlotLookup.StartsInSlot | src/App.jsx:360 | true iff the block is timed, starts on the day, and its start lies in [05:00 + 30i, 05:00 + 30(i+1)) |
| SlotLookup.SlotKey | src/App.jsx:339-349 | `slot-n` blocks are filed under n; other blocks are filed iff not all-day and starting on the day; a start before 05:00 is filed under slot 0, a later start under the slot it starts in |
| SlotLookup.TimedKeyIsStartSlot | src/App.jsx:344-347 | a non-slot block starting within a grid slot is filed under exactly that slot |
| SlotLookup.SlotMapFirstWins | src/App.jsx:336-352 | the index has key k iff some block is filed under k, and then holds the first such block in list order |
| SlotLookup.BuildSlotMap | src/App.jsx:336-352 | the loop builds the first-wins index: key k present iff some block has key k, mapped to the first such block |
| SlotLookup.FindBlockForSlot | src/App.jsx:354-361 | returns the first block filed under the slot if any; otherwise the first block starting in the slot; nothing iff no block is filed under it or starts in it |
| SlotLookup.FindsLoneBlock | src/App.jsx:354-361 | a block alone in the list is found at the slot it is filed under |
| SlotLookup.FallbackOnlyFindsMisplacedSlotBlocks | src/App.jsx:357-360 | for a grid slot the fallback scan can only return a `slot-` block whose start lies outside its own slot |
| GridEdits.WithTextKeepsAnchor | src/App.jsx:414 | the text area's updater keeps identifier, start and all-day flag |
| GridEdits.UpsertBlockForSlot | src/App.jsx:362-382 | an existing `slot-i` block is replaced in place with times re-derived from slot i; else the first block starting in the slot is replaced in place; else one new slot-i block is appended; nothing else changes |
| GridEdits.UpsertKeepsSlotIdsUnique | src/App.jsx:362-382 | with an identifier-preserving updater, an upsert never creates two blocks with the same `slot-` identifier |
| GridEdits.UpsertThenFind | src/App.jsx:362-382 | after typing into slot i the grid finds a block for slot i |
| GridEdits.EarlyBlockShadowsSlot0 | src/App.jsx:344-347 | as written, typing into slot 0 next to a block starting at 03:00 appends a `slot-0` block while the grid keeps showing the 03:00 block |
| GridEdits.UpsertShownBlock | src/App.jsx:362-382 | corrected upsert: a block the slot shows that is not its `slot-i` block takes the update in place, nothing else changes; in every other case it is the upsert as written |
| GridEdits.TypedTextShows | src/App.jsx:362-382 | with the corrected upsert, after typing into slot i the grid shows a block for slot i holding the typed text |
| GridEdits.UpsertThenShowsText | src/App.jsx:362-382 | as written, when the slot shows no block or its own `slot-i` block, the typed text is what the slot then shows |
| GridEdits.SameAnchorSameKey | src/App.jsx:339-347 | blocks agreeing on identifier, start and all-day flag are filed under the same slot and start in the same slots |
| GridEdits.KeptOnBlur | src/App.jsx:423-429 | a block survives the blur filter iff it is not the `slot-i` block and not a blank-text block starting in slot i |
| GridEdits.BlurCleanup | src/App.jsx:416-431 | nothing changes unless the text trims to empty; then the `slot-i` block goes and blank-text blocks starting in slot i go, every other block stays with its multiplicity and in its order |
| GridEdits.BlurDropsAttachedSlotBlock | src/App.jsx:423-424 | as written, a `slot-8` block holding an attachment is deleted on blur |
| GridEdits.BlurCleanupKeepingAttachments | src/App.jsx:420-431 | corrected clean-up: every block holding attachments keeps all its copies; every block without attachments keeps exactly as many copies as the code leaves; the result is a subsequence of the input, so order is kept |
| GridEdits.AddAttachments | src/App.jsx:328-329 | blocks with the identifier get the items after their existing attachments; no other field or block changes |
| GridEdits.RemoveAttachment | src/App.jsx:330-331 | blocks with the identifier lose exactly the attachments with that attachment id, keep every other one with its multiplicity and order, and gain none; other blocks are unchanged |
| GridEdits.RemoveUndoesAdd | src/App.jsx:328-331 | removing an attachment just added under a fresh id restores the list |
| GridEdits.RemoveBlock | src/App.jsx:326 | a block stays iff its identifier differs, as many times as it occurred, in the original order |
| GridEdits.UpdateText | src/App.jsx:327 | the list keeps its length; every block keeps every field but its text; blocks with the identifier get the new text, the others keep theirs |
| GridEdits.TypingIsUpdateText | src/App.jsx:327 | typing into a slot whose shown block is a timed block with a unique identifier is `updateText` on that identifier |
| GridEdits.StampFromId | src/App.jsx:479 | a `slot-n` identifier gives slot number n, an identifier without a dash gives 0, any other identifier gives no stamp |
| GridEdits.ModalAdd | src/App.jsx:473-487 | no target: no change; existing target: `addAttachments`; missing target: one timed block is appended with that identifier, empty text, just the items, and start and end both `StampFromId` of the identifier |
| GridEdits.ModalRemove | src/App.jsx:489-492 | no target: no change; otherwise `removeAttachment` |
| GridEdits.AttachButton | src/App.jsx:439-452 | a slot showing a block opens its dialog with the list unchanged; otherwise a slot-i block is appended; the dialog's block exists |
| Priorities.Update | src/App.jsx:103-107 | the copy holds `val` at i, every other entry unchanged, and grows (gaps empty) when i is past the end |
| CalendarTime.StartOfWeek | src/components/CalendarView.jsx:4-10 | midnight of a Monday, 0 to 6 days before the input |
| CalendarTime.StartOfWeekSameAllWeek | src/components/CalendarView.jsx:4-10 | every day of that week has the same start of week |
| CalendarTime.Clamp | src/components/CalendarView.jsx:22 | result in [lo, hi]; values inside are unchanged, values outside go to the nearer bound |
| CalendarTime.MinutesSinceMidnight | src/components/CalendarView.jsx:19-21 | hours*60 + minutes is the minute of the day |
| CalendarTime.WhenToSlotIndex | src/components/CalendarView.jsx:189-193 | never negative; from `dayStart` on, the half hour containing the time |
| CalendarTime.VisibleDays | src/components/CalendarView.jsx:62-66 | day view: the anchor's day; week view: 7 consecutive days from a Monday; in both, exactly the days of one unbroken range, containing the anchor |
| CalendarTime.Next | src/components/CalendarView.jsx:143-149 | +1 day in day view, +7 in week view, same time of day |
| CalendarTime.Prev | src/components/CalendarView.jsx:136-142 | -1 day in day view, -7 in week view, same time of day |
| CalendarTime.PrevUndoesNext | src/components/CalendarView.jsx:136-149 | `prev` after `next`, and `next` after `prev`, give back the anchor |
| CalendarTime.NextWeekShowsFollowingWeek | src/components/CalendarView.jsx:143-149 | in week view `next` shows the week starting seven days later |
| LanePacking.Overlaps | src/components/CalendarView.jsx:44 | two events collide iff each starts before the other ends; for events with top < bottom, iff the larger top is below the smaller bottom |
| LanePacking.Insert | src/components/CalendarView.jsx:39 | inserting adds exactly one copy of the event |
| LanePacking.InsertSorted | src/components/CalendarView.jsx:39 | inserting into a sorted list keeps it sorted |
| LanePacking.SortEvents | src/components/CalendarView.jsx:39 | the sort's result is ordered by top ascending, then height descending, and is a permutation of the input |
| LanePacking.PlacementKeepsPacking | src/components/CalendarView.jsx:41-51 | placing the next event in the first lane it collides with nothing in, or a new lane, keeps the lanes collision-free and first-fit |
| LanePacking.PlacementKeepsIndex | src/components/CalendarView.jsx:45-50 | pushing the event into lane k, or opening lane k = lanes.length, keeps every earlier event in its lane and files the new one in lane k only |
| LanePacking.PlacementKeepsNoCollision | src/components/CalendarView.jsx:44-46 | joining a lane none of whose events it overlaps, or a new lane, leaves no two overlapping events in one lane |
| LanePacking.PlacementKeepsFirstFit | src/components/CalendarView.jsx:43-50 | when every earlier lane holds an event it overlaps, the chosen lane is the first free one |
| LanePacking.FillLanes | src/components/CalendarView.jsx:40-51 | after the loop every event has a lane, no lane holds two overlapping events, and each event's lane is the first that was free for it |
| LanePacking.PackOverlaps | src/components/CalendarView.jsx:37-59 | returns the sorted events with lanes: no collisions, first fit, 0 <= laneIndex < laneCount, one shared laneCount equal to the number of lanes used |
| LanePacking.AssignLaneNumbers | src/components/CalendarView.jsx:54-57 | the nested walk over the lanes writes, for every event, the index of the lane holding it |
| LanePacking.LaneCountIsHighestLanePlusOne | src/components/CalendarView.jsx:53-57 | in a packing, laneCount is one more than the highest lane index any event got |
| LanePacking.PackingIsSortedPermutation | src/components/CalendarView.jsx:39 | the packed column is sorted and holds exactly the input events |
| LanePacking.DisjointUnderPermutation | src/components/CalendarView.jsx:39 | reordering events cannot create an overlap |
| LanePacking.DisjointEventsShareOneLane | src/components/CalendarView.jsx:41-57 | pairwise non-overlapping events all get lane 0 and laneCount 1 |
| LanePacking.OverlappingPairTakesTwoLanes | src/components/CalendarView.jsx:41-57 | two overlapping events get lanes 0 and 1 and laneCount 2 |
| LanePacking.FreedLaneIsReused | src/components/CalendarView.jsx:41-57 | A=[9:00,10:00), C inside A, B=[10:00,11:00): sorted A, C, B in lanes 0, 1, 0 with laneCount 2, B sharing A's lane without collision |
| LanePacking.SortThree | src/components/CalendarView.jsx:39 | three events with tops a < c < b are sorted as a, c, b |
| LanePacking.ThreeLanes | src/components/CalendarView.jsx:41-51 | first fit on three events where only the first two overlap yields lanes 0, 1, 0 |
| CalendarLayout.AxisPercent | src/components/CalendarView.jsx:84-87 | the clamped position on the 05:00–23:00 axis lies in [0, 100], proportional inside the window |
| CalendarLayout.AxisPercentMonotone | src/components/CalendarView.jsx:84-87 | a later minute never sits higher on the axis |
| CalendarLayout.TitleOf | src/components/CalendarView.jsx:90 | the title is the text if any, else the title if any, else "Untitled"; never empty |
| CalendarLayout.EventOf | src/components/CalendarView.jsx:84-96 | top and bottom are the axis positions of the start's and the end's minute of the day, so 0 <= top, bottom <= 100; height = max(2, bottom - top) >= 2; top <= bottom when the end's clock time is not earlier; the title is `TitleOf` the block; identifier, colour and block are carried over |
| CalendarLayout.TimedEventsOnDay | src/components/CalendarView.jsx:76-97 | a day's events are the events of timed blocks starting that day, and every such block has its event there, so an event appears only in its start day's column |
| CalendarLayout.TimedEventsFollowBlocks | src/components/CalendarView.jsx:76-97 | a day's list holds one event per timed block starting that day, in block order and counting repeats: the k-th event is `EventOf` the k-th block that passes the test |
| CalendarLayout.EventsPerDay | src/components/CalendarView.jsx:72-98 | the nested loops give each visible day, and only those, exactly its timed events |
| CalendarLayout.AddToStartDay | src/components/CalendarView.jsx:81-97 | one block's pass over the days appends its event to its start day's list only |
| CalendarLayout.TimeEvents | src/components/CalendarView.jsx:99-106 | each visible day's list is a packing of that day's timed events |
| CalendarLayout.AllDayBlocks | src/components/CalendarView.jsx:68-70 | exactly the all-day blocks, each as often as in the input, in input order |
| CalendarLayout.AllDayCell | src/components/CalendarView.jsx:202 | a dated all-day block appears on its own day only, an undated one on every day; each as often as in the input, in input order |
| CalendarLayout.AllDayRowShowsMatchingBlocks | src/components/CalendarView.jsx:68-70 | a chip shows on a day iff its block is all-day and either undated or dated that day |

## Left out

- Rendering is not modelled: JSX, CSS classes, SVG icons, the drag-selection highlight, the time-axis labels, and the lane width and offset arithmetic in `DayColumn`.
- Persistence, the hydration gate and `planner:*` storage keys are not modelled: they depend on `localStorage`, JSON and React effect order.
- The timers are not modelled: midnight rollover, the "now" refresh and "Today" all read the wall clock.
- Export and attachment creation are not modelled: they use `Blob`, object URLs, random UUIDs, `prompt` and file inputs.
- The calendar's double-click block creation is not modelled: it uses pixel geometry and `Date.now()` ids.
- Locale formatting is not modelled: `formatRangeLabel`, `toLocale*` and `AttachmentList.iconFor`.
- Time zones and daylight saving are not modelled: a day always has 1440 minutes.
- DayKey.TimeKey: takes the year, month and date a `Date` reports, not a day number. The calendar conversion from day numbers is not part of this model.
- Blocks.StartMoment: a numeric `start` or `end` counts as no date. JavaScript would read `new Date(n)` as n milliseconds after the start of 1970.
  - For the grid's slot numbers (0 to 38) that is an instant in the first milliseconds of 1970, not a day the planner normally shows.
  - A `cal-<milliseconds>` block recreated by the attachment dialog would get that timestamp as its start, which JavaScript reads as the block's creation instant, possibly on the shown day. The model does not capture this (see `StampFromId`).
- GridEdits.StampFromId: an identifier that is neither `slot-<n>` nor dash-free gets no start and end. JavaScript stores `Number` of the text between the first and the second dash. That is a number whenever the text is numeric: `x-5` gets start 5, and the calendar's `cal-<Date.now()>` identifiers get a millisecond timestamp. Otherwise it is NaN. The model keeps none of these.
- Priorities.Update: writing past the end fills the gap with empty strings. JavaScript leaves holes there, which read as `undefined`, show as empty inputs and are stored as `null`.
- GridEdits.RemoveAttachment: every block has an attachment list. In JavaScript `b.attachments.filter` throws on a block with the identifier that has no `attachments` field (src/App.jsx:331, 491); the model has no such block.
- LanePacking.Event: `top`, `bottom` and `height` are exact reals, not IEEE doubles.
- LanePacking.PackOverlaps: returns the packed list, as the source does. A laneCount of 1 for an empty input is carried by no event, so the model states it through `LaneCount([]) == 1` only.
- LanePacking.SortEvents: an insertion sort that keeps level events in input order. It stands for `Array.prototype.sort` with the top/height comparator, which is stable.
- LanePacking.PackOverlaps: a lane holds positions in the sorted list rather than the event objects. Mutating `laneIndex`/`laneCount` on shared objects is modelled as building the result list from an array of lane numbers.
- CalendarLayout.EventsPerDay: `useCalendarLayout`'s defaults `dayStart = 0`, `dayEnd = 24` are never used, because the view passes 5 and 23. The model fixes the window to 05:00–23:00.
- CalendarLayout.EventsPerDay: `useMemo` caching is not modelled; each call recomputes.

## Findings

| source | as written | input that shows it | evidently intended | confidence | as-written member | corrected member |
|---|---|---|---|---|---|---|
| src/App.jsx:344-347, 362-381 | a timed block starting before 05:00 is filed under slot 0 but does not start in slot 0, so typing into slot 0 appends a new `slot-0` block that the grid never shows | a block at 03:00–04:00; type "typed" into slot 0: the list gains a `slot-0` block with the text and the text area still shows the 03:00 block's empty text | the typed text goes to the block the slot shows | medium, not executed | GridEdits.EarlyBlockShadowsSlot0 | GridEdits.TypedTextShows |
| src/App.jsx:423-427 | the blur filter deletes the `slot-i` block whatever it holds, and a blank-text timed block in the slot even when it has attachments | a `slot-8` block with empty text and one attachment; blur slot 8 with an empty text area: the list becomes empty and the attachment is lost | blocks holding attachments survive the empty-text clean-up | medium, not executed | GridEdits.BlurDropsAttachedSlotBlock | GridEdits.BlurCleanupKeepingAttachments |

=== FILE: blocks.dfy ===
/**
 * The planner's block: a unit of text and attachments anchored either to a
 * grid row (an identifier `slot-<n>`) or to explicit start and end times.
 */
module Blocks {
  import opened Wrappers
  import opened Dates

  datatype AttachmentKind = FileAttachment | LinkAttachment

  datatype Attachment = Attachment(id: string, kind: AttachmentKind, name: string, mime: string, url: string)

  /** `slot-<n>` names grid row n; any other identifier is opaque. */
  datatype BlockId = SlotId(index: int) | OtherId(name: string)

  /**
   * What a block's `start` or `end` field holds: nothing, a bare slot number
   * (as the grid writes before deriving times) or a date.
   */
  datatype Stamp = Absent | SlotNumber(index: int) | At(moment: Moment)

  /**
   * A missing `allDay` reads as false, a missing `text`, `title` or `color`
   * as the empty string.
   */
  datatype Block = Block(
    id: BlockId,
    start: Stamp,
    end: Stamp,
    text: string,
    title: string,
    color: string,
    allDay: bool,
    date: Option<int>,
    attachments: seq<Attachment>)

  /**
   * `b.start` read as a date, when it is one. A bare slot number would be
   * read by `new Date(n)` as n milliseconds after 1 January 1970; the model
   * treats it as no date.
   */
  function StartMoment(b: Block): Option<Moment> {
    if b.start.At? then Some(b.start.moment) else None
  }

  function EndMoment(b: Block): Option<Moment> {
    if b.end.At? then Some(b.end.moment) else None
  }
}

=== FILE: calendar_layout.dfy ===
/**
 * `useCalendarLayout`: the visible days, the all-day chips of each day, and
 * for each day the timed events placed on the time axis and packed in lanes.
 */
module CalendarLayout {
  import opened Wrappers
  import opened Dates
  import opened Lists
  import opened Blocks
  import opened CalendarTime
  import opened LanePacking

  /** The calendar shows 5 AM to 11 PM. */
  const DayStart := 5
  const DayEnd := 23

  /** Where a minute of the day sits on the time axis, as a percentage, after clamping to the window. */
  function AxisPercent(minutes: int): (r: real)
    ensures 0.0 <= r <= 100.0
    ensures DayStart * 60 <= minutes <= DayEnd * 60 ==> r == (minutes - DayStart * 60) as real * 100.0 / 1080.0
    ensures minutes <= DayStart * 60 ==> r == 0.0
    ensures minutes >= DayEnd * 60 ==> r == 100.0
  {
    var startMin := DayStart * 60;
    var endMin := DayEnd * 60;
    var m := Clamp(minutes, startMin, endMin);
    ((m - startMin) as real / (endMin - startMin) as real) * 100.0
  }

  /** A later minute never sits higher on the axis. */
  lemma {:induction false} AxisPercentMonotone(m1: int, m2: int)
    ensures m1 <= m2 ==> AxisPercent(m1) <= AxisPercent(m2)
  {
    if m1 <= m2 {
      assert Clamp(m1, 300, 1380) <= Clamp(m2, 300, 1380);
    }
  }

  /** A block is drawn on the time axis when it is not all-day and has both a start and an end date. */
  predicate IsTimed(b: Block) {
    !b.allDay && StartMoment(b).Some? && EndMoment(b).Some?
  }

  /** `b.text || b.title || 'Untitled'` */
  function TitleOf(b: Block): (r: string)
    ensures r != ""
    ensures b.text != "" ==> r == b.text
    ensures b.text == "" && b.title != "" ==> r == b.title
    ensures b.text == "" && b.title == "" ==> r == "Untitled"
  {
    if b.text != "" then b.text else if b.title != "" then b.title else "Untitled"
  }

  /**
   * The event drawn for a timed block. Only the minute of the day of `start`
   * and `end` is used, so an end on a later day lands by its clock time.
   */
  function EventOf(b: Block): (e: Event)
    requires IsTimed(b)
    ensures e.raw == b && e.id == b.id && e.color == b.color && e.title == TitleOf(b)
    ensures e.top == AxisPercent(MinutesSinceMidnight(StartMoment(b).value))
    ensures e.bottom == AxisPercent(MinutesSinceMidnight(EndMoment(b).value))
    ensures 0.0 <= e.top <= 100.0 && 0.0 <= e.bottom <= 100.0
    ensures e.height >= 2.0 && e.height >= e.bottom - e.top
    ensures e.height == 2.0 || e.height == e.bottom - e.top
    ensures StartMoment(b).value.minute <= EndMoment(b).value.minute ==> e.top <= e.bottom
  {
    var s := StartMoment(b).value;
    var en := EndMoment(b).value;
    var top := AxisPercent(MinutesSinceMidnight(s));
    var bottom := AxisPercent(MinutesSinceMidnight(en));
    AxisPercentMonotone(s.minute, en.minute);
    Event(b.id, TitleOf(b), b.color, top, bottom, if 2.0 >= bottom - top then 2.0 else bottom - top, b)
  }

  /** The test the day columns apply: a timed block whose start falls on the day. */
  function TimedOn(day: int): Block -> bool {
    b => IsTimed(b) && StartMoment(b).value.day == day
  }

  /** The timed events of one day column, in block order: one per timed block starting that day. */
  function TimedEventsOnDay(blocks: seq<Block>, day: int): (r: seq<Event>)
    ensures |r| <= |blocks|
    ensures forall e :: e in r ==> e.raw in blocks && IsTimed(e.raw) && StartMoment(e.raw).value.day == day && e == EventOf(e.raw)
    ensures forall b :: b in blocks && IsTimed(b) && StartMoment(b).value.day == day ==> EventOf(b) in r
  {
    if blocks == [] then []
    else
      var init, b := blocks[..|blocks| - 1], blocks[|blocks| - 1];
      assert blocks == init + [b];
      TimedEventsOnDay(init, day) + (if IsTimed(b) && StartMoment(b).value.day == day then [EventOf(b)] else [])
  }

  /** `events` are the events of the timed blocks `bs`, one each, in the same order. */
  predicate EventsOfBlocks(events: seq<Event>, bs: seq<Block>) {
    && |events| == |bs|
    && forall k :: 0 <= k < |bs| ==> IsTimed(bs[k]) && events[k] == EventOf(bs[k])
  }

  lemma EventsOfBlocksSnoc(events: seq<Event>, bs: seq<Block>, b: Block)
    requires EventsOfBlocks(events, bs) && IsTimed(b)
    ensures EventsOfBlocks(events + [EventOf(b)], bs + [b])
  {
    var events', bs' := events + [EventOf(b)], bs + [b];
    forall k | 0 <= k < |bs'| ensures IsTimed(bs'[k]) && events'[k] == EventOf(bs'[k]) {
      if k < |bs| {
        assert bs'[k] == bs[k] && events'[k] == events[k];
      }
    }
  }

  /**
   * A day column holds one event per timed block starting that day, in
   * block order: the events of `filter`ing the blocks by that test.
   */
  lemma {:induction false} TimedEventsFollowBlocks(blocks: seq<Block>, day: int)
    ensures EventsOfBlocks(TimedEventsOnDay(blocks, day), Filter(blocks, TimedOn(day)))
  {
    if blocks != [] {
      var init, b := blocks[..|blocks| - 1], blocks[|blocks| - 1];
      assert blocks == init + [b];
      TimedEventsFollowBlocks(init, day);
      FilterSnoc(init, b, TimedOn(day));
      if TimedOn(day)(b) {
        EventsOfBlocksSnoc(TimedEventsOnDay(init, day), Filter(init, TimedOn(day)), b);
      }
    }
  }

  lemma {:induction false} TimedEventsStep(blocks: seq<Block>, i: nat, day: int)
    requires i < |blocks|
    ensures TimedEventsOnDay(blocks[..i + 1], day) == TimedEventsOnDay(blocks[..i], day) +
      (if IsTimed(blocks[i]) && StartMoment(blocks[i]).value.day == day then [EventOf(blocks[i])] else [])
  {
    assert blocks[..i + 1][..i] == blocks[..i];
  }

  /**
   * The per-day builder: for every timed block, and every visible day that
   * is the day of its start, the block's event is appended to that day's list.
   */
  method EventsPerDay(blocks: seq<Block>, anchor: Moment, mode: CalendarMode) returns (perDay: map<int, seq<Event>>)
    ensures forall d :: d in perDay <==> d in VisibleDays(anchor, mode)
    ensures forall d :: d in perDay ==> perDay[d] == TimedEventsOnDay(blocks, d)
  {
    var days := VisibleDays(anchor, mode);
    perDay := map d | d in days :: [];
    for bi := 0 to |blocks|
      invariant forall d :: d in perDay <==> d in days
      invariant forall d :: d in perDay ==> perDay[d] == TimedEventsOnDay(blocks[..bi], d)
    {
      var b := blocks[bi];
      // All-day blocks and blocks lacking a start or an end add nothing.
      if !b.allDay && b.start.At? && b.end.At? {
        perDay := AddToStartDay(perDay, days, b);
      }
      forall d | d in perDay ensures perDay[d] == TimedEventsOnDay(blocks[..bi + 1], d) {
        TimedEventsStep(blocks, bi, d);
      }
    }
    assert blocks[..|blocks|] == blocks;
  }

  /** One block's pass over the visible days: its event joins the list of the day it starts on. */
  method AddToStartDay(perDay: map<int, seq<Event>>, days: seq<int>, b: Block) returns (next: map<int, seq<Event>>)
    requires IsTimed(b)
    requires forall p, q :: 0 <= p < q < |days| ==> days[p] != days[q]
    requires forall d :: d in perDay <==> d in days
    ensures forall d :: d in next <==> d in days
    ensures forall d :: d in days ==> next[d] == perDay[d] + (if d == StartMoment(b).value.day then [EventOf(b)] else [])
  {
    var s := b.start.moment;
    next := perDay;
    for di := 0 to |days|
      invariant forall d :: d in next <==> d in days
      invariant forall k :: 0 <= k < |days| ==> days[k] in next && days[k] in perDay
      invariant forall k :: 0 <= k < |days| ==>
        next[days[k]] == perDay[days[k]] + (if k < di && days[k] == s.day then [EventOf(b)] else [])
    {
      var day := days[di];
      if day != s.day {
        continue;
      }
      next := next[day := next[day] + [EventOf(b)]];
    }
  }

  /** A map over the days lo..hi-1 given one more entry for day hi covers lo..hi. */
  lemma DaysExtend<V>(m: map<int, V>, next: map<int, V>, lo: int, hi: int, v: V)
    requires lo <= hi && forall d :: d in m <==> lo <= d < hi
    requires next == m[hi := v]
    ensures forall d :: d in next <==> lo <= d < hi + 1
  {
  }

  /** Adding a packing of day `hi`'s events keeps every entry a packing of its day's events. */
  lemma PackingsExtend(blocks: seq<Block>, packed: map<int, seq<Placed>>, hi: int, out: seq<Placed>)
    requires forall d :: d in packed ==> IsPacking(TimedEventsOnDay(blocks, d), packed[d])
    requires IsPacking(TimedEventsOnDay(blocks, hi), out)
    ensures forall d :: d in packed[hi := out] ==> IsPacking(TimedEventsOnDay(blocks, d), packed[hi := out][d])
  {
  }

  /** `timeEvents`: each visible day's events, packed into lanes. */
  method TimeEvents(blocks: seq<Block>, anchor: Moment, mode: CalendarMode) returns (packed: map<int, seq<Placed>>)
    ensures forall d :: d in packed <==> d in VisibleDays(anchor, mode)
    ensures forall d :: d in packed ==> IsPacking(TimedEventsOnDay(blocks, d), packed[d])
  {
    var perDay := EventsPerDay(blocks, anchor, mode);
    var days := VisibleDays(anchor, mode);
    packed := map[];
    for di := 0 to |days|
      invariant forall d :: d in packed <==> days[0] <= d < days[0] + di
      invariant forall d :: d in packed ==> IsPacking(TimedEventsOnDay(blocks, d), packed[d])
    {
      var day := days[di];
      assert day in perDay && day == days[0] + di;
      var out := PackOverlaps(perDay[day]);
      DaysExtend(packed, packed[day := out], days[0], day, out);
      PackingsExtend(blocks, packed, day, out);
      packed := packed[day := out];
    }
  }

  /** `allDay`: the all-day blocks, in block order. */
  function AllDayBlocks(blocks: seq<Block>): (r: seq<Block>)
    ensures forall b :: b in r <==> b in blocks && b.allDay
    ensures forall b :: b in blocks && b.allDay ==> multiset(r)[b] == multiset(blocks)[b]
    ensures IsSubsequence(r, blocks)
  {
    var r := Filter(blocks, (b: Block) => b.allDay);
    assert forall b :: b in blocks && b.allDay ==> b in r by {
      forall b | b in blocks && b.allDay ensures b in r {
        assert multiset(r)[b] == multiset(blocks)[b] > 0;
      }
    }
    r
  }

  /** The chips of one all-day cell: a dated block on its own day only, an undated one on every day. */
  function AllDayCell(allDay: seq<Block>, day: int): (r: seq<Block>)
    ensures forall b :: b in r <==> b in allDay && (b.date.None? || b.date.value == day)
    ensures forall b :: b in allDay && (b.date.None? || b.date.value == day) ==> multiset(r)[b] == multiset(allDay)[b]
    ensures IsSubsequence(r, allDay)
  {
    var r := Filter(allDay, (b: Block) => if b.date.Some? then b.date.value == day else true);
    assert forall b :: b in allDay && (b.date.None? || b.date.value == day) ==> b in r by {
      forall b | b in allDay && (b.date.None? || b.date.value == day) ensures b in r {
        assert multiset(r)[b] == multiset(allDay)[b] > 0;
      }
    }
    r
  }

  /** What the all-day row shows on a visible day. */
  lemma {:induction false} AllDayRowShowsMatchingBlocks(blocks: seq<Block>, day: int, b: Block)
    ensures b in AllDayCell(AllDayBlocks(blocks), day) <==> b in blocks && b.allDay && (b.date.None? || b.date.value == day)
  {
  }
}

=== FILE: calendar_time.dfy ===
/** The calendar's date arithmetic: weeks starting on Monday, visible days and prev/next navigation. */
module CalendarTime {
  import opened Dates

  /** `startOfWeek`: midnight of the Monday on or before the given day. */
  function StartOfWeek(t: Moment): (r: Moment)
    ensures r.minute == 0 && Weekday(r.day) == 1
    ensures 0 <= t.day - r.day <= 6
  {
    var back := (Weekday(t.day) + 6) % 7;
    Moment(t.day - back, 0)
  }

  /** Every day of a week has the same start of week. */
  lemma {:induction false} StartOfWeekSameAllWeek(t: Moment, u: Moment)
    requires StartOfWeek(t).day <= u.day < StartOfWeek(t).day + 7
    ensures StartOfWeek(u) == StartOfWeek(t)
  {
    var r := StartOfWeek(t).day;
    var k := u.day - r;
    assert (r + 4) % 7 == 1;
    assert Weekday(u.day) == (1 + k) % 7 by {
      assert u.day + 4 == (r + 4) + k;
    }
    assert (Weekday(u.day) + 6) % 7 == k;
  }

  /** `clamp(v, min, max)` */
  function Clamp(v: int, lo: int, hi: int): (r: int)
    ensures lo <= hi ==> lo <= r <= hi
    ensures lo <= v <= hi ==> r == v
    ensures v < lo ==> r == lo
    ensures lo <= hi < v ==> r == hi
  {
    if lo >= (if hi <= v then hi else v) then lo else if hi <= v then hi else v
  }

  /** `minutesSinceMidnight`: hours times sixty plus minutes, which is the minute of the day. */
  function MinutesSinceMidnight(t: Moment): (m: int)
    ensures m == t.minute
  {
    Hours(t) * 60 + Minutes(t)
  }

  /** `whenToSlotIndex`: the half hour, counted from `dayStart` o'clock, a time falls in; never negative. */
  function WhenToSlotIndex(t: Moment, dayStart: int): (i: int)
    ensures i >= 0
    ensures t.minute >= dayStart * 60 ==> dayStart * 60 + 30 * i <= t.minute < dayStart * 60 + 30 * (i + 1)
    ensures t.minute < dayStart * 60 ==> i == 0
  {
    var minutes := Hours(t) * 60 + Minutes(t);
    var fromStart := if minutes - dayStart * 60 >= 0 then minutes - dayStart * 60 else 0;
    fromStart / 30
  }

  datatype CalendarMode = DayMode | WeekMode

  /** The visible columns, as day numbers: the anchor's day, or Monday to Sunday of its week. */
  function VisibleDays(anchor: Moment, mode: CalendarMode): (days: seq<int>)
    ensures mode == DayMode ==> days == [anchor.day]
    ensures mode == WeekMode ==> |days| == 7 && Weekday(days[0]) == 1
    ensures forall k :: 0 <= k < |days| ==> days[k] == days[0] + k
    ensures forall d :: d in days <==> days[0] <= d < days[0] + |days|
    ensures anchor.day in days
  {
    match mode
    case DayMode => [anchor.day]
    case WeekMode =>
      var start := StartOfWeek(anchor).day;
      var days := seq(7, k => start + k);
      forall d | start <= d < start + 7 ensures d in days {
        assert days[d - start] == d;
      }
      days
  }

  function Step(mode: CalendarMode): int {
    if mode == DayMode then 1 else 7
  }

  /** `next`: one day on in day mode, seven in week mode, same time of day. */
  function Next(anchor: Moment, mode: CalendarMode): (r: Moment)
    ensures r.minute == anchor.minute
    ensures r.day == anchor.day + (if mode == DayMode then 1 else 7)
  {
    AddDays(anchor, Step(mode))
  }

  /** `prev`: one day back in day mode, seven in week mode. */
  function Prev(anchor: Moment, mode: CalendarMode): (r: Moment)
    ensures r.minute == anchor.minute
    ensures r.day == anchor.day - (if mode == DayMode then 1 else 7)
  {
    AddDays(anchor, -Step(mode))
  }

  lemma {:induction false} PrevUndoesNext(anchor: Moment, mode: CalendarMode)
    ensures Prev(Next(anchor, mode), mode) == anchor
    ensures Next(Prev(anchor, mode), mode) == anchor
  {
  }

  /** In week mode `next` shows the following week: its first column is seven days after the current one. */
  lemma {:induction false} NextWeekShowsFollowingWeek(anchor: Moment)
    ensures VisibleDays(Next(anchor, WeekMode), WeekMode)[0] == VisibleDays(anchor, WeekMode)[0] + 7
  {
    var n := Next(anchor, WeekMode);
    assert Weekday(n.day) == Weekday(anchor.day) by {
      assert n.day + 4 == (anchor.day + 4) + 7;
    }
  }
}

=== FILE: dates.dfy ===
/**
 * A JavaScript `Date` in local time, abstracted as a day number and a
 * minute of that day. Day 0 is Thursday 1 January 1970. Time zones,
 * daylight-saving shifts and seconds are not modelled.
 */
module Dates {
  const MinutesPerDay := 1440

  type MinuteOfDay = m: int | 0 <= m < 1440

  datatype Moment = Moment(day: int, minute: MinuteOfDay)

  /** The point on the time line that `<` and `>=` on two `Date`s compare: minutes since day 0. */
  function Instant(t: Moment): int {
    t.day * MinutesPerDay + t.minute
  }

  /**
   * A copy of midnight of `day` after `setMinutes(minutes)`: minute counts of
   * a day or more roll forward into later days, negative ones back.
   */
  function AtMinutes(day: int, minutes: int): (t: Moment)
    ensures Instant(t) == day * MinutesPerDay + minutes
    ensures 0 <= minutes < MinutesPerDay ==> t == Moment(day, minutes)
    ensures MinutesPerDay <= minutes < 2 * MinutesPerDay ==> t == Moment(day + 1, minutes - MinutesPerDay)
  {
    Moment(day + minutes / MinutesPerDay, minutes % MinutesPerDay)
  }

  /** `getHours()` */
  function Hours(t: Moment): int { t.minute / 60 }

  /** `getMinutes()` */
  function Minutes(t: Moment): int { t.minute % 60 }

  /** `isSameDay`: same year, month and date, that is, the same day number. */
  function IsSameDay(a: Moment, b: Moment): (r: bool)
    ensures r <==> Instant(a) / MinutesPerDay == Instant(b) / MinutesPerDay
  {
    assert Instant(a) / MinutesPerDay == a.day && Instant(b) / MinutesPerDay == b.day;
    a.day == b.day
  }

  /** `getDay()` of a day number: 0 is Sunday, so day 0 (a Thursday) is 4. */
  function Weekday(day: int): (w: int)
    ensures 0 <= w < 7
  {
    (day + 4) % 7
  }

  /** `setDate(getDate() + n)`: the same time of day, `n` days later. */
  function AddDays(t: Moment, n: int): (r: Moment)
    ensures Instant(r) == Instant(t) + n * MinutesPerDay
    ensures IsSameDay(r, t) <==> n == 0
  {
    Moment(t.day + n, t.minute)
  }
}

=== FILE: day_key.dfy ===
/** `timeKey`: the `YYYY-MM-DD` name of a calendar date, used in the storage key `planner:<key>`. */
module DayKey {
  import opened Wrappers
  import opened Text

  /** The year, month (1 to 12) and day of month (1 to 31) a `Date` reports. */
  datatype CivilDate = CivilDate(year: int, month: nat, date: nat)

  predicate IsFourDigitDate(c: CivilDate) {
    1000 <= c.year <= 9999 && 1 <= c.month <= 12 && 1 <= c.date <= 31
  }

  /** `timeKey`: the year as written, month and day padded to two digits, joined by dashes. */
  function TimeKey(c: CivilDate): (k: string)
    ensures c.month < 100 && c.date < 100 ==>
      && |k| >= 6 && k[|k| - 6] == '-' && k[|k| - 3] == '-'
      && AllDigits(k[|k| - 5..|k| - 3]) && DigitsValue(k[|k| - 5..|k| - 3]) == c.month
      && AllDigits(k[|k| - 2..]) && DigitsValue(k[|k| - 2..]) == c.date
  {
    var m, d := PadStart2(NatToString(c.month)), PadStart2(NatToString(c.date));
    assert c.month < 100 && c.date < 100 ==>
      |m| == 2 && AllDigits(m) && DigitsValue(m) == c.month && |d| == 2 && AllDigits(d) && DigitsValue(d) == c.date
    by {
      if c.month < 100 && c.date < 100 {
        PaddedRoundTrip(c.month);
        PaddedRoundTrip(c.date);
      }
    }
    DashedTail(IntToString(c.year), m, d);
    IntToString(c.year) + "-" + m + "-" + d
  }

  /** Where the two last fields of `y-m-d` sit. */
  lemma DashedTail(y: string, m: string, d: string)
    ensures var k := y + "-" + m + "-" + d;
      && k[|k| - |d|..] == d && k[|k| - |d| - 1] == '-'
      && k[|k| - |d| - 1 - |m|..|k| - |d| - 1] == m && k[|k| - |d| - 2 - |m|] == '-'
  {
  }

  /** Reads back a key of the form `DDDD-DD-DD`. */
  function ParseTimeKey(s: string): Option<CivilDate> {
    if |s| == 10 && s[4] == '-' && s[7] == '-'
       && AllDigits(s[..4]) && AllDigits(s[5..7]) && AllDigits(s[8..])
    then Some(CivilDate(DigitsValue(s[..4]), DigitsValue(s[5..7]), DigitsValue(s[8..])))
    else None
  }

  function Pow10(k: nat): nat {
    if k == 0 then 1 else 10 * Pow10(k - 1)
  }

  lemma {:induction false} NatToStringLength(n: nat, k: nat)
    requires 1 <= k && (k > 1 ==> Pow10(k - 1) <= n) && n < Pow10(k)
    ensures |NatToString(n)| == k
    decreases k
  {
    if k > 1 {
      assert n >= 10 by { PowMonotone(k - 1); }
      NatToStringLength(n / 10, k - 1);
    }
  }

  lemma {:induction false} PowMonotone(k: nat)
    requires k >= 1
    ensures Pow10(k) >= 10
  {
    if k > 1 { PowMonotone(k - 1); }
  }

  lemma {:induction false} DigitsValueBelow(s: string)
    requires AllDigits(s)
    ensures DigitsValue(s) < Pow10(|s|)
    decreases |s|
  {
    if s != [] { DigitsValueBelow(s[..|s| - 1]); }
  }

  lemma {:induction false} DigitsValueLeadingZero(s: string)
    requires AllDigits(s) && 1 <= |s| && s[0] == '0'
    ensures DigitsValue(s) == DigitsValue(s[1..])
    decreases |s|
  {
    if |s| > 1 {
      var init := s[..|s| - 1];
      assert init[0] == '0';
      DigitsValueLeadingZero(init);
      assert s[1..][..|s[1..]| - 1] == init[1..];
    }
  }

  /** Two-digit fields read back as the number that was padded. */
  lemma {:induction false} PaddedRoundTrip(n: nat)
    requires n < 100
    ensures |PadStart2(NatToString(n))| == 2 && AllDigits(PadStart2(NatToString(n)))
    ensures DigitsValue(PadStart2(NatToString(n))) == n
  {
    var s := PadStart2(NatToString(n));
    if n < 10 {
      assert s == ['0', DigitChar(n)];
      assert s[..1] == "0" && DigitValue(s[1]) == n;
      assert DigitsValue(s[..1]) == 0 by { assert s[..1][..0] == []; }
    } else {
      NatToStringLength(n, 2);
      DigitsValueOfNatToString(n);
    }
  }

  lemma {:induction false} PaddedFromDigits(t: string)
    requires |t| == 2 && AllDigits(t)
    ensures PadStart2(NatToString(DigitsValue(t))) == t
  {
    if t[0] == '0' {
      DigitsValueLeadingZero(t);
      assert t[1..][..0] == [];
      assert PadStart2(NatToString(DigitsValue(t))) == ['0', t[1]];
    } else {
      NatToStringOfDigitsValue(t);
    }
  }

  /** For four-digit years the key is `YYYY-MM-DD`: ten characters, dashes at positions 4 and 7. */
  lemma {:induction false} TimeKeyShape(c: CivilDate)
    requires IsFourDigitDate(c)
    ensures var k := TimeKey(c);
      |k| == 10 && k[4] == '-' && k[7] == '-'
      && AllDigits(k[..4]) && AllDigits(k[5..7]) && AllDigits(k[8..])
  {
    assert Pow10(3) == 1000 && Pow10(4) == 10000;
    NatToStringLength(c.year, 4);
    PaddedRoundTrip(c.month);
    PaddedRoundTrip(c.date);
    var k := TimeKey(c);
    assert k[..4] == NatToString(c.year);
    assert k[5..7] == PadStart2(NatToString(c.month));
    assert k[8..] == PadStart2(NatToString(c.date));
  }

  /** Reading a key back gives the date it was made from. */
  lemma {:induction false} ParseTimeKeyOfTimeKey(c: CivilDate)
    requires IsFourDigitDate(c)
    ensures ParseTimeKey(TimeKey(c)) == Some(c)
  {
    TimeKeyShape(c);
    var k := TimeKey(c);
    assert k[..4] == NatToString(c.year);
    assert k[5..7] == PadStart2(NatToString(c.month));
    assert k[8..] == PadStart2(NatToString(c.date));
    DigitsValueOfNatToString(c.year);
    PaddedRoundTrip(c.month);
    PaddedRoundTrip(c.date);
  }

  /** Conversely, every well-formed key whose year has no leading zero is the key of the date it reads as. */
  lemma {:induction false} TimeKeyOfParseTimeKey(s: string)
    requires ParseTimeKey(s).Some? && ParseTimeKey(s).value.year >= 1000
    ensures TimeKey(ParseTimeKey(s).value) == s
  {
    var y := s[..4];
    assert Pow10(3) == 1000;
    if y[0] == '0' {
      DigitsValueLeadingZero(y);
      DigitsValueBelow(y[1..]);
      assert false;
    }
    NatToStringOfDigitsValue(y);
    PaddedFromDigits(s[5..7]);
    PaddedFromDigits(s[8..]);
    assert s == y + "-" + s[5..7] + "-" + s[8..];
  }
}

=== FILE: grid_edits.dfy ===
/**
 * The schedule grid's edits of the day's block list: typing into a slot
 * (`upsertBlockForSlot`), the clean-up when an empty slot loses focus, the
 * attach button, and adding and removing attachments.
 */
module GridEdits {
  import opened Wrappers
  import opened Dates
  import opened Lists
  import opened Text
  import opened Blocks
  import opened Slots
  import opened SlotLookup

  /** The block the grid creates for slot i: `{ id: slot-i, start: i, end: i, text: '', attachments: [] }`. */
  function NewSlotBlock(i: int): Block {
    Block(SlotId(i), SlotNumber(i), SlotNumber(i), "", "", "", false, None, [])
  }

  /** The same block covering exactly slot i of `day`. */
  function SlotBlockAt(day: int, i: int): Block {
    Block(SlotId(i), At(SlotIndexToDate(day, i)), At(SlotIndexToDate(day, i + 1)), "", "", "", false, None, [])
  }

  /** No two blocks carry the same `slot-` identifier. */
  predicate UniqueSlotIds(blocks: seq<Block>) {
    forall p, q :: 0 <= p < q < |blocks| && blocks[p].id.SlotId? ==> blocks[p].id != blocks[q].id
  }

  /** The updater the grid's text area passes: `blk => ({ ...blk, text })`. */
  function WithText(text: string): Block -> Block {
    (b: Block) => b.(text := text)
  }

  /** An updater that leaves a block where it is: same identifier, start and all-day flag. */
  ghost predicate KeepsAnchor(update: Block -> Block) {
    forall b :: update(b).id == b.id && update(b).start == b.start && update(b).allDay == b.allDay
  }

  lemma {:induction false} WithTextKeepsAnchor(text: string)
    ensures KeepsAnchor(WithText(text))
  {
  }

  function IsSlotBlockFor(i: int): Block -> bool {
    (b: Block) => b.id == SlotId(i)
  }

  /**
   * `upsertBlockForSlot`: the update goes to the block identified `slot-i`
   * (whose times are then re-derived from slot i), else to the first block
   * starting in the slot, else to a new block for slot i appended at the end.
   */
  function UpsertBlockForSlot(blocks: seq<Block>, day: int, i: int, update: Block -> Block): (r: seq<Block>)
    ensures FindIndex(blocks, IsSlotBlockFor(i)).Some? ==>
      var k := FindIndex(blocks, IsSlotBlockFor(i)).value;
      |r| == |blocks|
      && (forall j :: 0 <= j < |blocks| && j != k ==> r[j] == blocks[j])
      && (update(blocks[k]).id == SlotId(i) ==>
            r[k] == update(blocks[k]).(start := At(SlotIndexToDate(day, i)), end := At(SlotIndexToDate(day, i + 1)), allDay := false))
    ensures FindIndex(blocks, IsSlotBlockFor(i)).None? && FindIndex(blocks, StartsIn(day, i)).Some? ==>
      var k := FindIndex(blocks, StartsIn(day, i)).value;
      |r| == |blocks|
      && (forall j :: 0 <= j < |blocks| && j != k ==> r[j] == blocks[j])
      && r[k] == update(blocks[k])
    ensures FindIndex(blocks, IsSlotBlockFor(i)).None? && FindIndex(blocks, StartsIn(day, i)).None? ==>
      r == blocks + [update(SlotBlockAt(day, i))]
  {
    match FindIndex(blocks, IsSlotBlockFor(i))
    case Some(k) =>
      var updated := update(blocks[k]);
      var withTimes := EnsureTimedFieldsFromSlot(day, updated.(start := SlotNumber(i), end := SlotNumber(i)));
      blocks[k := withTimes]
    case None =>
      match FindIndex(blocks, StartsIn(day, i))
      case Some(k) => blocks[k := update(blocks[k])]
      case None =>
        var created := EnsureTimedFieldsFromSlot(day, NewSlotBlock(i));
        assert created == SlotBlockAt(day, i);
        blocks + [update(created)]
  }

  /** An upsert whose updater keeps identifiers never creates a second block for a slot. */
  lemma {:induction false} UpsertKeepsSlotIdsUnique(blocks: seq<Block>, day: int, i: int, update: Block -> Block)
    requires UniqueSlotIds(blocks)
    requires forall b :: update(b).id == b.id
    ensures UniqueSlotIds(UpsertBlockForSlot(blocks, day, i, update))
  {
    var r := UpsertBlockForSlot(blocks, day, i, update);
    if FindIndex(blocks, IsSlotBlockFor(i)).None? && FindIndex(blocks, StartsIn(day, i)).None? {
      assert r[|blocks|].id == SlotId(i);
      forall p, q | 0 <= p < q < |r| && r[p].id.SlotId?
        ensures r[p].id != r[q].id
      {
        if q == |blocks| {
          assert !IsSlotBlockFor(i)(blocks[p]);
        }
      }
    } else {
      assert forall j :: 0 <= j < |r| ==> r[j].id == blocks[j].id;
    }
  }

  /** After typing into a grid slot, the grid finds a block for that slot. */
  lemma {:induction false} UpsertThenFind(blocks: seq<Block>, day: int, i: int, update: Block -> Block)
    requires 0 <= i < TotalSlots
    requires KeepsAnchor(update)
    ensures FindBlockForSlot(UpsertBlockForSlot(blocks, day, i, update), day, i).Some?
  {
    var r := UpsertBlockForSlot(blocks, day, i, update);
    var k: nat;
    if FindIndex(blocks, IsSlotBlockFor(i)).Some? {
      k := FindIndex(blocks, IsSlotBlockFor(i)).value;
    } else if FindIndex(blocks, StartsIn(day, i)).Some? {
      k := FindIndex(blocks, StartsIn(day, i)).value;
      assert StartsInSlot(r[k], day, i) by {
        assert StartMoment(r[k]) == StartMoment(blocks[k]);
      }
      if !r[k].id.SlotId? {
        TimedKeyIsStartSlot(r[k], day, i);
      } else if i !in SlotMapOf(r, day) {
        assert StartsIn(day, i)(r[k]);
      }
    } else {
      k := |blocks|;
    }
    assert HasKey(day, SlotKey(r[k], day).value)(r[k]);
    SlotMapFirstWins(r, day, i);
  }

  /**
   * As written, typing into slot 0 can miss the block the slot shows: a block
   * starting at 03:00 is filed under slot 0 (starts before 05:00 are clamped
   * there) but does not start within slot 0, so the upsert appends a new
   * `slot-0` block, and the grid keeps showing the 03:00 block.
   */
  lemma EarlyBlockShadowsSlot0(day: int)
    ensures var t := Block(OtherId("early"), At(Moment(day, 180)), At(Moment(day, 240)), "", "", "", false, None, []);
      var r := UpsertBlockForSlot([t], day, 0, WithText("typed"));
      r == [t, SlotBlockAt(day, 0).(text := "typed")] && FindBlockForSlot(r, day, 0) == Some(t)
  {
    var t := Block(OtherId("early"), At(Moment(day, 180)), At(Moment(day, 240)), "", "", "", false, None, []);
    assert !StartsInSlot(t, day, 0);
    assert FindIndex([t], StartsIn(day, 0)).None?;
    var r := UpsertBlockForSlot([t], day, 0, WithText("typed"));
    assert SlotKey(t, day) == Some(0);
    FindIndexIsFirst(r, HasKey(day, 0), 0);
  }

  /**
   * The upsert as evidently intended: the update goes to the block the slot
   * shows; only when the slot shows no block does the search for a block
   * starting in the slot, or the creation of one, apply.
   */
  function UpsertShownBlock(blocks: seq<Block>, day: int, i: int, update: Block -> Block): (r: seq<Block>)
    ensures FindIndex(blocks, HasKey(day, i)).Some? && blocks[FindIndex(blocks, HasKey(day, i)).value].id != SlotId(i) ==>
      var k := FindIndex(blocks, HasKey(day, i)).value;
      |r| == |blocks| && (forall j :: 0 <= j < |blocks| && j != k ==> r[j] == blocks[j]) && r[k] == update(blocks[k])
    ensures FindIndex(blocks, HasKey(day, i)).None? || blocks[FindIndex(blocks, HasKey(day, i)).value].id == SlotId(i) ==>
      r == UpsertBlockForSlot(blocks, day, i, update)
  {
    match FindIndex(blocks, HasKey(day, i))
    case Some(k) =>
      if blocks[k].id == SlotId(i) then UpsertBlockForSlot(blocks, day, i, update)
      else blocks[k := update(blocks[k])]
    case None => UpsertBlockForSlot(blocks, day, i, update)
  }

  /** With the intended upsert, the text typed into a grid slot is what the slot then shows. */
  lemma {:induction false} TypedTextShows(blocks: seq<Block>, day: int, i: int, text: string)
    requires 0 <= i < TotalSlots
    ensures var r := UpsertShownBlock(blocks, day, i, WithText(text));
      FindBlockForSlot(r, day, i).Some? && FindBlockForSlot(r, day, i).value.text == text
  {
    if FindIndex(blocks, HasKey(day, i)).Some? {
      TypingIntoShownBlock(blocks, day, i, text);
    } else {
      NoKeyNoSlotBlock(blocks, day, i);
      if FindIndex(blocks, StartsIn(day, i)).Some? {
        TypingIntoStartingBlock(blocks, day, i, text);
      } else {
        TypingIntoEmptySlot(blocks, day, i, text);
      }
    }
  }

  /** No block filed under slot `i` means no `slot-i` block either. */
  lemma NoKeyNoSlotBlock(blocks: seq<Block>, day: int, i: int)
    requires 0 <= i < TotalSlots
    requires FindIndex(blocks, HasKey(day, i)).None?
    ensures FindIndex(blocks, IsSlotBlockFor(i)).None?
  {
    forall j | 0 <= j < |blocks| ensures !IsSlotBlockFor(i)(blocks[j]) {
      assert !HasKey(day, i)(blocks[j]);
    }
  }

  /** The slot shows nothing and no block starts in it: the created `slot-i` block takes the text and is shown. */
  lemma TypingIntoEmptySlot(blocks: seq<Block>, day: int, i: int, text: string)
    requires 0 <= i < TotalSlots
    requires FindIndex(blocks, HasKey(day, i)).None? && FindIndex(blocks, IsSlotBlockFor(i)).None?
    requires FindIndex(blocks, StartsIn(day, i)).None?
    ensures var r := UpsertShownBlock(blocks, day, i, WithText(text));
      FindBlockForSlot(r, day, i).Some? && FindBlockForSlot(r, day, i).value.text == text
  {
    var r := UpsertShownBlock(blocks, day, i, WithText(text));
    assert r == blocks + [WithText(text)(SlotBlockAt(day, i))];
    forall j | 0 <= j < |blocks| ensures !HasKey(day, i)(r[j]) {
      assert r[j] == blocks[j];
    }
    FindIndexIsFirst(r, HasKey(day, i), |blocks|);
  }

  /** Blocks that agree on identifier, start and all-day flag are filed and found alike. */
  lemma SameAnchorSameKey(a: Block, b: Block, day: int, i: int)
    requires a.id == b.id && a.start == b.start && a.allDay == b.allDay
    ensures SlotKey(a, day) == SlotKey(b, day)
    ensures StartsInSlot(a, day, i) == StartsInSlot(b, day, i)
  {
  }

  /** The slot shows a block filed under it: that block takes the text and stays the one shown. */
  lemma {:induction false} TypingIntoShownBlock(blocks: seq<Block>, day: int, i: int, text: string)
    requires FindIndex(blocks, HasKey(day, i)).Some?
    ensures var r := UpsertShownBlock(blocks, day, i, WithText(text));
      FindBlockForSlot(r, day, i).Some? && FindBlockForSlot(r, day, i).value.text == text
  {
    var k := FindIndex(blocks, HasKey(day, i)).value;
    var r := UpsertShownBlock(blocks, day, i, WithText(text));
    if blocks[k].id == SlotId(i) {
      forall j | 0 <= j < k ensures !IsSlotBlockFor(i)(blocks[j]) {
        assert !HasKey(day, i)(blocks[j]);
      }
      FindIndexIsFirst(blocks, IsSlotBlockFor(i), k);
      assert r[k].id == SlotId(i) && r[k].text == text;
      assert SlotKey(r[k], day) == Some(i);
    } else {
      assert r[k] == blocks[k].(text := text);
      SameAnchorSameKey(r[k], blocks[k], day, i);
    }
    forall j | 0 <= j < k ensures !HasKey(day, i)(r[j]) {
      assert r[j] == blocks[j];
    }
    FindIndexIsFirst(r, HasKey(day, i), k);
  }

  /** The slot shows a misplaced block found by the fallback scan: it takes the text and is still found. */
  lemma {:induction false} TypingIntoStartingBlock(blocks: seq<Block>, day: int, i: int, text: string)
    requires FindIndex(blocks, HasKey(day, i)).None? && FindIndex(blocks, IsSlotBlockFor(i)).None?
    requires FindIndex(blocks, StartsIn(day, i)).Some?
    ensures var r := UpsertShownBlock(blocks, day, i, WithText(text));
      FindBlockForSlot(r, day, i).Some? && FindBlockForSlot(r, day, i).value.text == text
  {
    var k := FindIndex(blocks, StartsIn(day, i)).value;
    var r := UpsertShownBlock(blocks, day, i, WithText(text));
    assert r[k] == blocks[k].(text := text);
    SameAnchorSameKey(r[k], blocks[k], day, i);
    forall j | 0 <= j < |r| ensures !HasKey(day, i)(r[j]) {
      assert !HasKey(day, i)(blocks[j]);
    }
    forall j | 0 <= j < k ensures !StartsIn(day, i)(r[j]) {
      assert r[j] == blocks[j];
    }
    FindIndexIsFirst(r, StartsIn(day, i), k);
  }

  /**
   * The code as written shows the typed text whenever the slot shows no
   * block yet or shows its own `slot-i` block: there it agrees with the
   * intended upsert.
   */
  lemma {:induction false} UpsertThenShowsText(blocks: seq<Block>, day: int, i: int, text: string)
    requires 0 <= i < TotalSlots
    requires FindIndex(blocks, HasKey(day, i)).None? || blocks[FindIndex(blocks, HasKey(day, i)).value].id == SlotId(i)
    ensures var r := UpsertBlockForSlot(blocks, day, i, WithText(text));
      FindBlockForSlot(r, day, i).Some? && FindBlockForSlot(r, day, i).value.text == text
  {
    TypedTextShows(blocks, day, i, text);
  }

  /**
   * The blur filter's test: the block identified `slot-i` goes whatever it
   * holds; a block starting in slot i goes when its text trims to nothing.
   */
  function KeptOnBlur(b: Block, day: int, i: int): (r: bool)
    ensures r <==> b.id != SlotId(i) && !(StartsInSlot(b, day, i) && IsBlank(b.text))
  {
    TrimEmptyIffBlank(b.text);
    if b.id == SlotId(i) then false
    else !(StartsInSlot(b, day, i) && Trim(b.text) == "")
  }

  /** The blur handler: when the slot's text trims to nothing, drop the blocks `KeptOnBlur` rejects. */
  function BlurCleanup(blocks: seq<Block>, day: int, i: int, value: string): (r: seq<Block>)
    ensures !IsBlank(value) ==> r == blocks
    ensures IsBlank(value) ==> forall b :: b in r ==> b in blocks && b.id != SlotId(i) && !(StartsInSlot(b, day, i) && IsBlank(b.text))
    ensures IsBlank(value) ==> forall b :: b in blocks && b.id != SlotId(i) && !(StartsInSlot(b, day, i) && IsBlank(b.text))
                                  ==> multiset(r)[b] == multiset(blocks)[b]
    ensures IsSubsequence(r, blocks)
  {
    TrimEmptyIffBlank(value);
    SubsequenceOfItself(blocks);
    if Trim(value) != "" then blocks
    else Filter(blocks, KeptOnBlurTest(day, i))
  }

  function KeptOnBlurTest(day: int, i: int): Block -> bool {
    b => KeptOnBlur(b, day, i)
  }

  /** Blur clean-up, as written, deletes the slot's block even when it holds attachments. */
  lemma BlurDropsAttachedSlotBlock(day: int, a: Attachment)
    ensures var b := SlotBlockAt(day, 8).(attachments := [a]);
      BlurCleanup([b], day, 8, "") == []
  {
    var b := SlotBlockAt(day, 8).(attachments := [a]);
    assert !KeptOnBlur(b, day, 8);
    assert [b][..0] == [];
    assert Filter([b], KeptOnBlurTest(day, 8)) == [];
  }

  /** The clean-up as evidently intended: blocks holding attachments stay. */
  predicate KeptOnBlurKeepingAttachments(b: Block, day: int, i: int) {
    b.attachments != [] || KeptOnBlur(b, day, i)
  }

  function KeepingAttachmentsTest(day: int, i: int): Block -> bool {
    b => KeptOnBlurKeepingAttachments(b, day, i)
  }

  /** On a block without attachments the two blur filters agree, copy for copy; attached blocks pass the intended one. */
  lemma KeepingAttachmentsAgrees(blocks: seq<Block>, day: int, i: int)
    ensures var kept, asWritten := Filter(blocks, KeepingAttachmentsTest(day, i)), Filter(blocks, KeptOnBlurTest(day, i));
      && (forall b :: b in blocks && b.attachments == [] ==> multiset(kept)[b] == multiset(asWritten)[b])
      && (forall b :: b in blocks && b.attachments != [] ==> multiset(kept)[b] == multiset(blocks)[b])
  {
  }

  function BlurCleanupKeepingAttachments(blocks: seq<Block>, day: int, i: int, value: string): (r: seq<Block>)
    ensures !IsBlank(value) ==> r == blocks
    ensures forall b :: b in blocks && b.attachments != [] ==> multiset(r)[b] == multiset(blocks)[b]
    ensures forall b :: b in r ==> b in blocks
    ensures IsBlank(value) ==> forall b :: b in blocks && b.attachments == [] ==>
      (b in r <==> b in BlurCleanup(blocks, day, i, value))
    ensures forall b :: b in blocks && b.attachments == [] ==>
      multiset(r)[b] == multiset(BlurCleanup(blocks, day, i, value))[b]
    ensures IsSubsequence(r, blocks)
  {
    TrimEmptyIffBlank(value);
    SubsequenceOfItself(blocks);
    if Trim(value) != "" then blocks
    else
      KeepingAttachmentsAgrees(blocks, day, i);
      Filter(blocks, KeepingAttachmentsTest(day, i))
  }

  /** `addAttachments`: the items go after the existing attachments of every block with the identifier. */
  function AddAttachments(blocks: seq<Block>, id: BlockId, items: seq<Attachment>): (r: seq<Block>)
    ensures |r| == |blocks|
    ensures forall j :: 0 <= j < |r| ==> r[j] == blocks[j].(attachments := r[j].attachments)
    ensures forall j :: 0 <= j < |r| ==>
      r[j].attachments == if blocks[j].id == id then blocks[j].attachments + items else blocks[j].attachments
  {
    seq(|blocks|, j requires 0 <= j < |blocks| =>
      if blocks[j].id == id then blocks[j].(attachments := blocks[j].attachments + items) else blocks[j])
  }

  function HasOtherId(attId: string): Attachment -> bool {
    (a: Attachment) => a.id != attId
  }

  /** `removeAttachment`: every block with the identifier loses the attachments with that attachment id, and only those. */
  function RemoveAttachment(blocks: seq<Block>, id: BlockId, attId: string): (r: seq<Block>)
    ensures |r| == |blocks|
    ensures forall j :: 0 <= j < |r| ==> r[j] == blocks[j].(attachments := r[j].attachments)
    ensures forall j :: 0 <= j < |r| && blocks[j].id != id ==> r[j] == blocks[j]
    ensures forall j, a :: 0 <= j < |r| && blocks[j].id == id && a in blocks[j].attachments ==>
      (a in r[j].attachments <==> a.id != attId)
    ensures forall j, a :: 0 <= j < |r| && a in r[j].attachments ==> a in blocks[j].attachments
    ensures forall j, a :: 0 <= j < |r| && blocks[j].id == id && a in blocks[j].attachments && a.id != attId ==>
      multiset(r[j].attachments)[a] == multiset(blocks[j].attachments)[a]
    ensures forall j :: 0 <= j < |r| ==> IsSubsequence(r[j].attachments, blocks[j].attachments)
  {
    forall j | 0 <= j < |blocks| { SubsequenceOfItself(blocks[j].attachments); }
    seq(|blocks|, j requires 0 <= j < |blocks| =>
      if blocks[j].id == id then blocks[j].(attachments := Filter(blocks[j].attachments, HasOtherId(attId)))
      else blocks[j])
  }

  lemma {:induction false} FilterDropsFreshAttachment(atts: seq<Attachment>, a: Attachment)
    requires forall x :: x in atts ==> x.id != a.id
    ensures Filter(atts + [a], HasOtherId(a.id)) == atts
  {
    FilterSnoc(atts, a, HasOtherId(a.id));
    FilterAllKept(atts, HasOtherId(a.id));
  }

  /** Removing an attachment just added, under an attachment id the block did not use yet, restores the list. */
  lemma {:induction false} RemoveUndoesAdd(blocks: seq<Block>, id: BlockId, a: Attachment)
    requires forall j, x :: 0 <= j < |blocks| && blocks[j].id == id && x in blocks[j].attachments ==> x.id != a.id
    ensures RemoveAttachment(AddAttachments(blocks, id, [a]), id, a.id) == blocks
  {
    var added := AddAttachments(blocks, id, [a]);
    var r := RemoveAttachment(added, id, a.id);
    forall j | 0 <= j < |blocks|
      ensures r[j] == blocks[j]
    {
      if blocks[j].id == id {
        FilterDropsFreshAttachment(blocks[j].attachments, a);
        assert r[j].attachments == Filter(added[j].attachments, HasOtherId(a.id));
      }
    }
  }

  /** `removeBlock` (and the calendar's delete button): drop every block with the identifier. */
  function RemoveBlock(blocks: seq<Block>, id: BlockId): (r: seq<Block>)
    ensures forall b :: b in r <==> b in blocks && b.id != id
    ensures forall b :: b in blocks && b.id != id ==> multiset(r)[b] == multiset(blocks)[b]
    ensures IsSubsequence(r, blocks)
  {
    Filter(blocks, (b: Block) => b.id != id)
  }

  /** `updateText`: every block with the identifier gets the new text, and nothing else changes. */
  function UpdateText(blocks: seq<Block>, id: BlockId, text: string): (r: seq<Block>)
    ensures |r| == |blocks|
    ensures forall j :: 0 <= j < |r| ==> r[j] == blocks[j].(text := r[j].text)
    ensures forall j :: 0 <= j < |r| ==> r[j].text == if blocks[j].id == id then text else blocks[j].text
  {
    seq(|blocks|, j requires 0 <= j < |blocks| => if blocks[j].id == id then blocks[j].(text := text) else blocks[j])
  }

  /**
   * Typing into a slot whose shown block is a timed block (no `slot-i` block
   * exists) does what `updateText` does for that block's identifier, when
   * no other block shares it.
   */
  lemma {:induction false} TypingIsUpdateText(blocks: seq<Block>, day: int, i: int, text: string)
    requires FindIndex(blocks, IsSlotBlockFor(i)).None? && FindIndex(blocks, StartsIn(day, i)).Some?
    requires var k := FindIndex(blocks, StartsIn(day, i)).value;
      forall j :: 0 <= j < |blocks| && j != k ==> blocks[j].id != blocks[k].id
    ensures var k := FindIndex(blocks, StartsIn(day, i)).value;
      UpsertBlockForSlot(blocks, day, i, WithText(text)) == UpdateText(blocks, blocks[k].id, text)
  {
    var k := FindIndex(blocks, StartsIn(day, i)).value;
    var r := UpsertBlockForSlot(blocks, day, i, WithText(text));
    var u := UpdateText(blocks, blocks[k].id, text);
    assert |r| == |u|;
    forall j | 0 <= j < |r| ensures r[j] == u[j] {
      if j == k {
        assert r[k] == blocks[k].(text := text);
      }
    }
  }

  /**
   * The stamp the attachment dialog derives from an identifier: the slot
   * number of a `slot-` identifier, 0 for an identifier without a dash. For
   * any other identifier JavaScript reads the text between the first and the
   * second dash as a number; the model keeps no stamp there.
   */
  function StampFromId(id: BlockId): (r: Stamp)
    ensures id.SlotId? ==> r == SlotNumber(id.index)
    ensures id.OtherId? && '-' !in id.name ==> r == SlotNumber(0)
    ensures id.OtherId? && '-' in id.name ==> r == Absent
  {
    match id
    case SlotId(n) => SlotNumber(n)
    case OtherId(name) => if '-' in name then Absent else SlotNumber(0)
  }

  /**
   * The attachment dialog's add handler: nothing without a target block;
   * a missing target is appended holding just the new items, with empty
   * text and the start and end `StampFromId` reads from its identifier;
   * otherwise `addAttachments`.
   */
  function ModalAdd(blocks: seq<Block>, target: Option<BlockId>, items: seq<Attachment>): (r: seq<Block>)
    ensures target.None? ==> r == blocks
    ensures target.Some? ==> exists j :: 0 <= j < |r| && EndsWithItems(r[j], target.value, items)
    ensures target.Some? && (exists j :: 0 <= j < |blocks| && blocks[j].id == target.value) ==> r == AddAttachments(blocks, target.value, items)
    ensures target.Some? && (forall j :: 0 <= j < |blocks| ==> blocks[j].id != target.value) ==>
      && |r| == |blocks| + 1 && r[..|blocks|] == blocks
      && r[|blocks|].id == target.value && r[|blocks|].attachments == items
      && r[|blocks|].text == "" && !r[|blocks|].allDay
      && r[|blocks|].start == r[|blocks|].end == StampFromId(target.value)
  {
    match target
    case None => blocks
    case Some(id) =>
      match FindIndex(blocks, (b: Block) => b.id == id)
      case None =>
        var n := StampFromId(id);
        var created := Block(id, n, n, "", "", "", false, None, items);
        CreatedBlockEndsWithItems(created, items);
        var r := blocks + [created];
        assert r[..|blocks|] == blocks && r[|blocks|] == created;
        r
      case Some(k) =>
        AddedBlockEndsWithItems(blocks, id, items, k);
        AddAttachments(blocks, id, items)
  }

  /** Block `b` is identified `id` and its attachments end with `items`. */
  predicate EndsWithItems(b: Block, id: BlockId, items: seq<Attachment>) {
    b.id == id && |items| <= |b.attachments| && b.attachments[|b.attachments| - |items|..] == items
  }

  lemma CreatedBlockEndsWithItems(b: Block, items: seq<Attachment>)
    requires b.attachments == items
    ensures EndsWithItems(b, b.id, items)
  {
    assert b.attachments[0..] == items;
  }

  lemma AddedBlockEndsWithItems(blocks: seq<Block>, id: BlockId, items: seq<Attachment>, k: int)
    requires 0 <= k < |blocks| && blocks[k].id == id
    ensures EndsWithItems(AddAttachments(blocks, id, items)[k], id, items)
  {
    var r := AddAttachments(blocks, id, items);
    assert r[k].attachments == blocks[k].attachments + items;
    assert r[k].attachments[|r[k].attachments| - |items|..] == items;
  }

  /** The dialog's remove handler: nothing without a target block, else `removeAttachment`. */
  function ModalRemove(blocks: seq<Block>, target: Option<BlockId>, attId: string): (r: seq<Block>)
    ensures target.None? ==> r == blocks
    ensures target.Some? ==> r == RemoveAttachment(blocks, target.value, attId)
  {
    match target
    case None => blocks
    case Some(id) => RemoveAttachment(blocks, id, attId)
  }

  /** What the attach button leaves behind: the block list and the block the dialog opens for. */
  datatype AttachOutcome = AttachOutcome(blocks: seq<Block>, dialogFor: BlockId)

  /**
   * The attach button: a slot that shows a block opens the dialog for it
   * and changes nothing; otherwise a block for the slot is appended, unless
   * one identified `slot-i` already exists.
   */
  function AttachButton(blocks: seq<Block>, day: int, i: int): (r: AttachOutcome)
    ensures FindBlockForSlot(blocks, day, i).Some? ==> r == AttachOutcome(blocks, FindBlockForSlot(blocks, day, i).value.id)
    ensures FindBlockForSlot(blocks, day, i).None? ==> r == AttachOutcome(blocks + [SlotBlockAt(day, i)], SlotId(i))
    ensures exists j :: 0 <= j < |r.blocks| && r.blocks[j].id == r.dialogFor
  {
    match FindBlockForSlot(blocks, day, i)
    case Some(b) => AttachOutcome(blocks, b.id)
    case None =>
      var id := SlotId(i);
      match FindIndex(blocks, IsSlotBlockFor(i))
      case Some(_) =>
        // Unreachable: a `slot-i` block is always in the index under i.
        SlotMapFirstWins(blocks, day, i);
        assert false;
        AttachOutcome(blocks, id)
      case None =>
        var created := EnsureTimedFieldsFromSlot(day, NewSlotBlock(i));
        assert created == SlotBlockAt(day, i);
        var r := AttachOutcome(blocks + [created], id);
        assert r.blocks[|blocks|].id == id;
        r
  }
}

=== FILE: lane_packing.dfy ===
/**
 * `packOverlaps`: the events of one day column are sorted, then each is put
 * greedily into the first lane holding nothing it overlaps; every event then
 * learns its lane and how many lanes the column has.
 */
module LanePacking {
  import opened Blocks

  /** One timed block drawn in one day column; `top`, `bottom` and `height` are percentages of the column. */
  datatype Event = Event(id: BlockId, title: string, color: string, top: real, bottom: real, height: real, raw: Block)

  /** The packer's overlap test: neither event ends at or before the other begins. */
  function Overlaps(e: Event, o: Event): (r: bool)
    ensures r <==> o.top < e.bottom && e.top < o.bottom
    ensures e.top < e.bottom && o.top < o.bottom ==>
      (r <==> (if e.top >= o.top then e.top else o.top) < (if e.bottom <= o.bottom then e.bottom else o.bottom))
  {
    !(e.bottom <= o.top || e.top >= o.bottom)
  }

  /** The sort order: `top` ascending, then `height` descending. `InOrder(a, b)`: `a` may stand before `b`. */
  predicate InOrder(a: Event, b: Event) {
    a.top < b.top || (a.top == b.top && a.height >= b.height)
  }

  predicate Sorted(s: seq<Event>) {
    forall p, q :: 0 <= p < q < |s| ==> InOrder(s[p], s[q])
  }

  /**
   * Puts `x` before the first element that does not sort strictly ahead of
   * it, so an element sorting level with `x` stays behind it.
   */
  function Insert(x: Event, s: seq<Event>): (r: seq<Event>)
    ensures multiset(r) == multiset(s) + multiset{x}
  {
    if s == [] || InOrder(x, s[0]) then [x] + s
    else
      assert s == [s[0]] + s[1..];
      [s[0]] + Insert(x, s[1..])
  }

  /** Inserting into a sorted list keeps it sorted. */
  lemma {:induction false} InsertSorted(x: Event, s: seq<Event>)
    requires Sorted(s)
    ensures Sorted(Insert(x, s))
  {
    if s == [] || InOrder(x, s[0]) {
    } else {
      var rest := Insert(x, s[1..]);
      InsertSorted(x, s[1..]);
      forall y | y in rest ensures InOrder(s[0], y) {
        assert y in multiset(rest);
        if y != x {
          assert y in multiset(s[1..]);
        }
      }
    }
  }

  /**
   * The order `[...events].sort(by top, then by height descending)` produces:
   * sorted and a permutation of the input.
   */
  function SortEvents(events: seq<Event>): (r: seq<Event>)
    ensures Sorted(r)
    ensures multiset(r) == multiset(events)
    ensures |r| == |events|
  {
    if events == [] then []
    else
      assert events == [events[0]] + events[1..];
      InsertSorted(events[0], SortEvents(events[1..]));
      Insert(events[0], SortEvents(events[1..]))
  }

  /** An event with the lane it was put in and the number of lanes of its column. */
  datatype Placed = Placed(event: Event, laneIndex: nat, laneCount: nat)

  function EventsOf(ps: seq<Placed>): seq<Event> {
    seq(|ps|, p requires 0 <= p < |ps| => ps[p].event)
  }

  function LanesOf(ps: seq<Placed>): seq<nat> {
    seq(|ps|, p requires 0 <= p < |ps| => ps[p].laneIndex)
  }

  /** The lane count every event of a packed column carries; 1 for an empty column. */
  function LaneCount(ps: seq<Placed>): nat {
    if ps == [] then 1 else ps[0].laneCount
  }

  /** No two events in the same lane overlap. */
  ghost predicate NoCollision(evs: seq<Event>, lanes: seq<nat>) {
    forall p, q :: 0 <= p < q < |lanes| && q < |evs| && lanes[p] == lanes[q] ==> !Overlaps(evs[p], evs[q])
  }

  /** Lane `k` holds an event placed before position `p` that overlaps the event at `p`. */
  ghost predicate BlockedBefore(evs: seq<Event>, lanes: seq<nat>, p: int, k: int) {
    exists q :: 0 <= q < p && q < |lanes| && p < |evs| && lanes[q] == k && Overlaps(evs[p], evs[q])
  }

  /** First fit: each event's lane is the lowest one not blocked when it was placed. */
  ghost predicate FirstFit(evs: seq<Event>, lanes: seq<nat>) {
    forall p, k :: 0 <= p < |lanes| && 0 <= k < lanes[p] ==> BlockedBefore(evs, lanes, p, k)
  }

  ghost predicate LaneUsed(lanes: seq<nat>, k: int) {
    exists p :: 0 <= p < |lanes| && lanes[p] == k
  }

  /** What `packOverlaps(events)` returns. */
  ghost predicate IsPacking(events: seq<Event>, ps: seq<Placed>) {
    && EventsOf(ps) == SortEvents(events)
    && NoCollision(EventsOf(ps), LanesOf(ps))
    && FirstFit(EventsOf(ps), LanesOf(ps))
    && (forall p :: 0 <= p < |ps| ==> ps[p].laneCount == LaneCount(ps) && ps[p].laneIndex < LaneCount(ps))
    && (ps != [] ==> forall k :: 0 <= k < LaneCount(ps) ==> LaneUsed(LanesOf(ps), k))
  }

  /** `lane.some(o => overlaps(e, o))`, the lane given as positions in the sorted list. */
  predicate Collides(evs: seq<Event>, lane: seq<nat>, e: Event) {
    exists x :: x in lane && x < |evs| && Overlaps(e, evs[x])
  }

  /**
   * The state of `packOverlaps` after placing the first `j` sorted events:
   * `lanes` lists, lane by lane, the positions of the events in it, and
   * `laneOf` gives each placed event's lane.
   */
  ghost predicate LanesDescribe(sorted: seq<Event>, lanes: seq<seq<nat>>, laneOf: seq<nat>, j: int) {
    && |laneOf| == j && j <= |sorted|
    && (forall p :: 0 <= p < j ==> laneOf[p] < |lanes|)
    && (forall k :: 0 <= k < |lanes| ==> |lanes[k]| > 0)
    && (forall k, x :: 0 <= k < |lanes| && 0 <= x < |lanes[k]| ==> lanes[k][x] < j && laneOf[lanes[k][x]] == k)
    && (forall p :: 0 <= p < j ==> p in lanes[laneOf[p]])
    && NoCollision(sorted, laneOf)
    && FirstFit(sorted, laneOf)
  }

  /** Event `j` joins lane `k`, or opens a new lane when `k` is past the last one. */
  function Place(lanes: seq<seq<nat>>, k: nat, j: nat): seq<seq<nat>> {
    if k < |lanes| then lanes[k := lanes[k] + [j]] else lanes + [[j]]
  }

  /** Putting the next event into the first lane it does not collide with keeps the packing first-fit and collision-free. */
  lemma {:induction false} PlacementKeepsPacking(sorted: seq<Event>, lanes: seq<seq<nat>>, laneOf: seq<nat>, j: nat, k: nat)
    requires LanesDescribe(sorted, lanes, laneOf, j) && j < |sorted|
    requires k <= |lanes|
    requires forall k' :: 0 <= k' < k ==> Collides(sorted, lanes[k'], sorted[j])
    requires k < |lanes| ==> !Collides(sorted, lanes[k], sorted[j])
    ensures LanesDescribe(sorted, Place(lanes, k, j), laneOf + [k], j + 1)
  {
    PlacementKeepsIndex(sorted, lanes, laneOf, j, k);
    PlacementKeepsNoCollision(sorted, lanes, laneOf, j, k);
    PlacementKeepsFirstFit(sorted, lanes, laneOf, j, k);
  }

  /** After the placement, `lanes` and `laneOf` still list the same placements, now including event `j`. */
  lemma {:induction false} PlacementKeepsIndex(sorted: seq<Event>, lanes: seq<seq<nat>>, laneOf: seq<nat>, j: nat, k: nat)
    requires LanesDescribe(sorted, lanes, laneOf, j) && j < |sorted|
    requires k <= |lanes|
    ensures var lanes', laneOf' := Place(lanes, k, j), laneOf + [k];
      && (forall p :: 0 <= p < j + 1 ==> laneOf'[p] < |lanes'|)
      && (forall k2 :: 0 <= k2 < |lanes'| ==> |lanes'[k2]| > 0)
      && (forall k2, x :: 0 <= k2 < |lanes'| && 0 <= x < |lanes'[k2]| ==> lanes'[k2][x] < j + 1 && laneOf'[lanes'[k2][x]] == k2)
      && (forall p :: 0 <= p < j + 1 ==> p in lanes'[laneOf'[p]])
  {
    var lanes', laneOf' := Place(lanes, k, j), laneOf + [k];
    forall k2, x | 0 <= k2 < |lanes'| && 0 <= x < |lanes'[k2]|
      ensures lanes'[k2][x] < j + 1 && laneOf'[lanes'[k2][x]] == k2
    {
      if k2 < |lanes| && x < |lanes[k2]| {
        assert lanes'[k2][x] == lanes[k2][x];
      }
    }
    forall p | 0 <= p < j + 1 ensures p in lanes'[laneOf'[p]] {
      if p < j {
        assert p in lanes[laneOf[p]];
      }
    }
  }

  /** Event `j` joins a lane none of whose events it overlaps, or a new lane. */
  lemma {:induction false} PlacementKeepsNoCollision(sorted: seq<Event>, lanes: seq<seq<nat>>, laneOf: seq<nat>, j: nat, k: nat)
    requires LanesDescribe(sorted, lanes, laneOf, j) && j < |sorted|
    requires k <= |lanes|
    requires k < |lanes| ==> !Collides(sorted, lanes[k], sorted[j])
    ensures NoCollision(sorted, laneOf + [k])
  {
    var laneOf' := laneOf + [k];
    forall p, q | 0 <= p < q < j + 1 && laneOf'[p] == laneOf'[q]
      ensures !Overlaps(sorted[p], sorted[q])
    {
      if q == j {
        assert p in lanes[k];
      }
    }
  }

  /** Every lane below the one event `j` joins holds an event it overlaps. */
  lemma {:induction false} PlacementKeepsFirstFit(sorted: seq<Event>, lanes: seq<seq<nat>>, laneOf: seq<nat>, j: nat, k: nat)
    requires LanesDescribe(sorted, lanes, laneOf, j) && j < |sorted|
    requires k <= |lanes|
    requires forall k' :: 0 <= k' < k ==> Collides(sorted, lanes[k'], sorted[j])
    ensures FirstFit(sorted, laneOf + [k])
  {
    var laneOf' := laneOf + [k];
    forall p, k' | 0 <= p < j + 1 && 0 <= k' < laneOf'[p]
      ensures BlockedBefore(sorted, laneOf', p, k')
    {
      if p < j {
        assert BlockedBefore(sorted, laneOf, p, k');
        var q :| 0 <= q < p && q < |laneOf| && p < |sorted| && laneOf[q] == k' && Overlaps(sorted[p], sorted[q]);
        assert laneOf'[q] == k';
      } else {
        assert Collides(sorted, lanes[k'], sorted[j]);
        var x :| x in lanes[k'] && x < |sorted| && Overlaps(sorted[j], sorted[x]);
        var i :| 0 <= i < |lanes[k']| && lanes[k'][i] == x;
        assert laneOf'[x] == k';
      }
    }
  }

  /**
   * `packOverlaps`. A lane is kept as the positions, in the sorted list, of
   * the events it holds; `laneOf` records each placed event's lane.
   */
  method PackOverlaps(events: seq<Event>) returns (packed: seq<Placed>)
    ensures IsPacking(events, packed)
  {
    var sorted := SortEvents(events);
    var n := |sorted|;
    var lanes: seq<seq<nat>>;
    ghost var laneOf: seq<nat>;
    lanes, laneOf := FillLanes(sorted);
    var laneCount := if |lanes| == 0 then 1 else |lanes|;
    var laneIndex := AssignLaneNumbers(lanes, n, laneOf);
    var numbers := laneIndex[..];
    packed := seq(n, p requires 0 <= p < n => Placed(sorted[p], numbers[p], laneCount));
    PlacedLanesArePacking(events, sorted, lanes, laneOf);
    assert packed == seq(n, p requires 0 <= p < n => Placed(sorted[p], laneOf[p], laneCount));
  }

  /** Tagging each sorted event with the lane the placing loop gave it, and the number of lanes, is a packing. */
  lemma PlacedLanesArePacking(events: seq<Event>, sorted: seq<Event>, lanes: seq<seq<nat>>, laneOf: seq<nat>)
    requires sorted == SortEvents(events)
    requires LanesDescribe(sorted, lanes, laneOf, |sorted|)
    ensures var laneCount := if |lanes| == 0 then 1 else |lanes|;
      IsPacking(events, seq(|sorted|, p requires 0 <= p < |sorted| => Placed(sorted[p], laneOf[p], laneCount)))
  {
    var laneCount := if |lanes| == 0 then 1 else |lanes|;
    var packed := seq(|sorted|, p requires 0 <= p < |sorted| => Placed(sorted[p], laneOf[p], laneCount));
    PlacedParts(sorted, laneOf, laneCount, packed);
    EveryLaneUsed(lanes, laneOf);
    if sorted != [] {
      assert laneOf[0] < |lanes| == laneCount;
    }
    PackingOfParts(events, packed, laneOf, laneCount);
  }

  /** Tagging sorted events with lanes and a lane count gives back those events and lanes. */
  lemma PlacedParts(sorted: seq<Event>, laneOf: seq<nat>, laneCount: nat, packed: seq<Placed>)
    requires |laneOf| == |sorted|
    requires packed == seq(|sorted|, p requires 0 <= p < |sorted| => Placed(sorted[p], laneOf[p], laneCount))
    ensures EventsOf(packed) == sorted && LanesOf(packed) == laneOf
    ensures forall p :: 0 <= p < |packed| ==> packed[p].laneCount == laneCount
  {
  }

  /** The conditions of `IsPacking`, stated on the sorted events and the lanes on their own. */
  lemma PackingOfParts(events: seq<Event>, packed: seq<Placed>, laneOf: seq<nat>, laneCount: nat)
    requires EventsOf(packed) == SortEvents(events) && LanesOf(packed) == laneOf
    requires NoCollision(SortEvents(events), laneOf) && FirstFit(SortEvents(events), laneOf)
    requires forall p :: 0 <= p < |packed| ==> packed[p].laneCount == laneCount
    requires forall p :: 0 <= p < |laneOf| ==> laneOf[p] < laneCount
    requires packed != [] ==> forall k :: 0 <= k < laneCount ==> LaneUsed(laneOf, k)
    ensures IsPacking(events, packed)
  {
    if packed != [] {
      assert LaneCount(packed) == laneCount;
      assert forall p :: 0 <= p < |packed| ==> packed[p].laneIndex == laneOf[p];
    }
  }

  /** Every lane the placing loop opened holds some event. */
  lemma EveryLaneUsed(lanes: seq<seq<nat>>, laneOf: seq<nat>)
    requires forall k :: 0 <= k < |lanes| ==> |lanes[k]| > 0
    requires forall k, x :: 0 <= k < |lanes| && 0 <= x < |lanes[k]| ==> lanes[k][x] < |laneOf| && laneOf[lanes[k][x]] == k
    ensures forall k :: 0 <= k < |lanes| ==> LaneUsed(laneOf, k)
  {
    forall k | 0 <= k < |lanes| ensures LaneUsed(laneOf, k) {
      assert laneOf[lanes[k][0]] == k;
    }
  }

  /** The final pass of `packOverlaps`: every event of lane `idx` is told its lane number `idx`. */
  method AssignLaneNumbers(lanes: seq<seq<nat>>, n: nat, ghost laneOf: seq<nat>) returns (laneIndex: array<nat>)
    requires |laneOf| == n
    requires forall k, x :: 0 <= k < |lanes| && 0 <= x < |lanes[k]| ==> lanes[k][x] < |laneOf| && laneOf[lanes[k][x]] == k
    requires forall p :: 0 <= p < |laneOf| ==> laneOf[p] < |lanes| && p in lanes[laneOf[p]]
    ensures fresh(laneIndex)
    ensures laneIndex[..] == laneOf
  {
    laneIndex := new nat[n];
    for idx := 0 to |lanes|
      invariant forall p :: 0 <= p < n && laneOf[p] < idx ==> laneIndex[p] == laneOf[p]
    {
      var lane := lanes[idx];
      for x := 0 to |lane|
        invariant forall p :: 0 <= p < n && (laneOf[p] < idx || p in lane[..x]) ==> laneIndex[p] == laneOf[p]
      {
        laneIndex[lane[x]] := idx;
      }
      assert lane[..|lane|] == lane;
    }
  }

  /** The placing loop of `packOverlaps`: each sorted event goes into the first lane it collides with nothing in. */
  method FillLanes(sorted: seq<Event>) returns (lanes: seq<seq<nat>>, ghost laneOf: seq<nat>)
    ensures LanesDescribe(sorted, lanes, laneOf, |sorted|)
  {
    lanes, laneOf := [], [];
    for j := 0 to |sorted|
      invariant LanesDescribe(sorted, lanes, laneOf, j)
    {
      var e := sorted[j];
      ghost var before := lanes;
      ghost var laneOfBefore := laneOf;
      var placed := false;
      var k := 0;
      while k < |lanes|
        invariant 0 <= k <= |lanes| && lanes == before && laneOf == laneOfBefore && !placed
        invariant forall k' :: 0 <= k' < k ==> Collides(sorted, lanes[k'], e)
      {
        if !Collides(sorted, lanes[k], e) {
          lanes := lanes[k := lanes[k] + [j]];
          laneOf := laneOf + [k];
          placed := true;
          break;
        }
        k := k + 1;
      }
      if !placed {
        lanes := lanes + [[j]];
        laneOf := laneOf + [k];
      }
      assert lanes == Place(before, k, j);
      PlacementKeepsPacking(sorted, before, laneOfBefore, j, k);
    }
  }

  /** The packed column lists the input's events, sorted, each exactly as often as in the input. */
  lemma {:induction false} PackingIsSortedPermutation(events: seq<Event>, ps: seq<Placed>)
    requires IsPacking(events, ps)
    ensures Sorted(EventsOf(ps))
    ensures multiset(EventsOf(ps)) == multiset(events)
  {
  }

  ghost predicate PairwiseDisjoint(s: seq<Event>) {
    forall p, q :: 0 <= p < q < |s| ==> !Overlaps(s[p], s[q])
  }

  /** Dropping one element keeps a list pairwise disjoint. */
  lemma {:induction false} DisjointWithout(s: seq<Event>, i: nat)
    requires i < |s| && PairwiseDisjoint(s)
    ensures PairwiseDisjoint(s[..i] + s[i + 1..])
  {
    var s' := s[..i] + s[i + 1..];
    forall p, q | 0 <= p < q < |s'| ensures !Overlaps(s'[p], s'[q]) {
      var p' := if p < i then p else p + 1;
      var q' := if q < i then q else q + 1;
      assert s'[p] == s[p'] && s'[q] == s[q'];
    }
  }

  lemma {:induction false} MultisetWithout(s: seq<Event>, i: nat)
    requires i < |s|
    ensures multiset(s[..i] + s[i + 1..]) == multiset(s) - multiset{s[i]}
  {
    assert s == s[..i] + [s[i]] + s[i + 1..];
  }

  /** An element of a disjoint list overlaps nothing that the rest of the list holds. */
  lemma {:induction false} HeadDisjointFromRest(s: seq<Event>, i: nat, t: seq<Event>)
    requires i < |s| && PairwiseDisjoint(s)
    requires |t| > 0 && s[i] == t[0]
    requires multiset(s[..i] + s[i + 1..]) == multiset(t[1..])
    ensures forall q :: 1 <= q < |t| ==> !Overlaps(t[0], t[q])
  {
    var s' := s[..i] + s[i + 1..];
    forall q | 1 <= q < |t| ensures !Overlaps(t[0], t[q]) {
      assert t[q] in multiset(t[1..]);
      var m :| 0 <= m < |s'| && s'[m] == t[q];
      var m' := if m < i then m else m + 1;
      assert s[m'] == t[q] && m' != i;
    }
  }

  lemma {:induction false} MultisetTail(t: seq<Event>)
    requires |t| > 0
    ensures multiset(t[1..]) == multiset(t) - multiset{t[0]}
  {
    assert t == [t[0]] + t[1..];
  }

  /** Whether events overlap does not depend on the order they are listed in. */
  lemma {:induction false} DisjointUnderPermutation(s: seq<Event>, t: seq<Event>)
    requires multiset(s) == multiset(t) && PairwiseDisjoint(s)
    ensures PairwiseDisjoint(t)
    decreases |t|
  {
    if |t| > 0 {
      var i := MatchHead(s, t);
      var s' := s[..i] + s[i + 1..];
      DisjointWithout(s, i);
      DisjointUnderPermutation(s', t[1..]);
      HeadDisjointFromRest(s, i, t);
      DisjointCons(t);
    }
  }

  /** Where a permutation's first element sits in the other list, and what is left of both without it. */
  lemma {:induction false} MatchHead(s: seq<Event>, t: seq<Event>) returns (i: nat)
    requires multiset(s) == multiset(t) && |t| > 0
    ensures i < |s| && s[i] == t[0]
    ensures multiset(s[..i] + s[i + 1..]) == multiset(t[1..])
  {
    assert t[0] in multiset(t);
    assert t[0] in s;
    i :| 0 <= i < |s| && s[i] == t[0];
    MultisetWithout(s, i);
    MultisetTail(t);
  }

  /** A list is disjoint when its tail is and its head overlaps nothing in the tail. */
  lemma {:induction false} DisjointCons(t: seq<Event>)
    requires |t| > 0 && PairwiseDisjoint(t[1..])
    requires forall q :: 1 <= q < |t| ==> !Overlaps(t[0], t[q])
    ensures PairwiseDisjoint(t)
  {
    forall p, q | 0 <= p < q < |t| ensures !Overlaps(t[p], t[q]) {
      if p > 0 {
        assert t[p] == t[1..][p - 1] && t[q] == t[1..][q - 1];
      }
    }
  }

  /** Events no two of which overlap all go into lane 0, and the column has one lane. */
  lemma {:induction false} DisjointEventsShareOneLane(events: seq<Event>, ps: seq<Placed>)
    requires IsPacking(events, ps)
    requires PairwiseDisjoint(events)
    ensures forall p :: 0 <= p < |ps| ==> ps[p].laneIndex == 0
    ensures LaneCount(ps) == 1
  {
    var evs, lanes := EventsOf(ps), LanesOf(ps);
    DisjointUnderPermutation(events, evs);
    forall p | 0 <= p < |ps| ensures ps[p].laneIndex == 0 {
      assert !BlockedBefore(evs, lanes, p, 0);
    }
    assert !LaneUsed(lanes, 1);
  }

  /** The lane count is one more than the highest lane any event got: no lane is left empty. */
  lemma {:induction false} LaneCountIsHighestLanePlusOne(events: seq<Event>, ps: seq<Placed>, top: nat)
    requires IsPacking(events, ps)
    requires forall k :: k in LanesOf(ps) ==> k <= top
    requires top in LanesOf(ps)
    ensures LaneCount(ps) == top + 1
  {
    var lanes := LanesOf(ps);
    forall p | 0 <= p < |lanes| ensures lanes[p] <= top {
      assert lanes[p] in lanes;
    }
    assert !LaneUsed(lanes, top + 1);
  }

  /** Two overlapping events go side by side: lanes 0 and 1 of a two-lane column. */
  lemma {:induction false} OverlappingPairTakesTwoLanes(a: Event, b: Event, ps: seq<Placed>)
    requires IsPacking([a, b], ps)
    requires Overlaps(a, b)
    ensures |ps| == 2 && ps[0].laneIndex == 0 && ps[1].laneIndex == 1
    ensures LaneCount(ps) == 2
  {
    var evs, lanes := EventsOf(ps), LanesOf(ps);
    assert |evs| == |SortEvents([a, b])| == 2 && multiset(evs) == multiset{a, b};
    OverlapSurvivesReorder(a, b, evs);
    TwoLanes(evs, lanes);
    LaneCountIsHighestLanePlusOne([a, b], ps, 1);
  }

  /** A reordering of two overlapping events still overlaps. */
  lemma OverlapSurvivesReorder(a: Event, b: Event, evs: seq<Event>)
    requires |evs| == 2 && multiset(evs) == multiset{a, b} && Overlaps(a, b)
    ensures Overlaps(evs[0], evs[1])
  {
    assert evs[0] in multiset(evs) && evs[1] in multiset(evs);
    if evs[0] == evs[1] {
      assert multiset(evs)[evs[0]] == 2;
      assert a == b;
    }
  }

  /** First fit on two overlapping events puts them in lanes 0 and 1. */
  lemma TwoLanes(evs: seq<Event>, lanes: seq<nat>)
    requires |evs| == |lanes| == 2
    requires NoCollision(evs, lanes) && FirstFit(evs, lanes)
    requires Overlaps(evs[0], evs[1])
    ensures lanes == [0, 1]
  {
    assert !BlockedBefore(evs, lanes, 0, 0);
    assert !BlockedBefore(evs, lanes, 1, 1);
  }

  lemma {:induction false} SortThree(a: Event, b: Event, c: Event)
    requires a.top < c.top < b.top
    ensures SortEvents([a, b, c]) == [a, c, b]
  {
    SortTwo(b, c);
    assert [a, b, c][1..] == [b, c];
    assert Insert(a, [c, b]) == [a, c, b];
  }

  lemma {:induction false} SortTwo(b: Event, c: Event)
    requires c.top < b.top
    ensures SortEvents([b, c]) == [c, b]
  {
    assert [c][1..] == [];
    assert SortEvents([c]) == Insert(c, []) == [c];
    assert [b, c][1..] == [c];
    assert Insert(b, [c]) == [c] + Insert(b, []) == [c, b];
  }

  /**
   * Three events where `c` lies inside `a` and `b` starts when `a` ends:
   * `a` and `c` need two lanes, and `b` reuses lane 0 next to `c` without
   * colliding with `a`.
   */
  lemma {:induction false} FreedLaneIsReused(a: Event, b: Event, c: Event, ps: seq<Placed>)
    requires IsPacking([a, b, c], ps)
    requires a.top < c.top < c.bottom <= a.bottom == b.top < b.bottom
    ensures EventsOf(ps) == [a, c, b]
    ensures LanesOf(ps) == [0, 1, 0]
    ensures LaneCount(ps) == 2
  {
    FreedLaneLanes(a, b, c, ps);
    LaneCountIsHighestLanePlusOne([a, b, c], ps, 1);
  }

  lemma FreedLaneLanes(a: Event, b: Event, c: Event, ps: seq<Placed>)
    requires IsPacking([a, b, c], ps)
    requires a.top < c.top < c.bottom <= a.bottom == b.top < b.bottom
    ensures EventsOf(ps) == [a, c, b]
    ensures LanesOf(ps) == [0, 1, 0]
  {
    SortThree(a, b, c);
    var evs, lanes := EventsOf(ps), LanesOf(ps);
    assert NoCollision(evs, lanes) && FirstFit(evs, lanes);
    ThreeLanes(evs, lanes);
  }

  /** First fit on three events where only the first two overlap puts them in lanes 0, 1, 0. */
  lemma {:induction false} ThreeLanes(evs: seq<Event>, lanes: seq<nat>)
    requires |evs| == |lanes| == 3
    requires NoCollision(evs, lanes) && FirstFit(evs, lanes)
    requires Overlaps(evs[0], evs[1]) && !Overlaps(evs[2], evs[0])
    ensures lanes == [0, 1, 0]
  {
    assert !BlockedBefore(evs, lanes, 0, 0);
    assert !BlockedBefore(evs, lanes, 1, 1);
    assert !BlockedBefore(evs, lanes, 2, 0);
  }
}

=== FILE: lists.dfy ===
/** The array searches and filters the planner applies to its block list. */
module Lists {
  import opened Wrappers

  /** `Array.prototype.findIndex`, with `None` for -1: the first position whose element satisfies `p`. */
  function FindIndex<T>(s: seq<T>, p: T -> bool): (r: Option<nat>)
    ensures r.Some? ==> r.value < |s| && p(s[r.value])
    ensures r.Some? ==> forall j :: 0 <= j < r.value ==> !p(s[j])
    ensures r.None? <==> forall j :: 0 <= j < |s| ==> !p(s[j])
  {
    if s == [] then None
    else if p(s[0]) then Some(0)
    else match FindIndex(s[1..], p)
      case None => None
      case Some(k) => Some(k + 1)
  }

  /** The position of the first element satisfying `p`, once that element and the misses before it are known. */
  lemma FindIndexIsFirst<T>(s: seq<T>, p: T -> bool, k: nat)
    requires k < |s| && p(s[k])
    requires forall j :: 0 <= j < k ==> !p(s[j])
    ensures FindIndex(s, p) == Some(k)
  {
  }

  /** `r` is `s` with some elements left out: what is left keeps its order. */
  predicate IsSubsequence<T(==)>(r: seq<T>, s: seq<T>)
    decreases |s|
  {
    if r == [] then true
    else if s == [] then false
    else
      || (r[|r| - 1] == s[|s| - 1] && IsSubsequence(r[..|r| - 1], s[..|s| - 1]))
      || IsSubsequence(r, s[..|s| - 1])
  }

  lemma {:induction false} SubsequenceOfItself<T>(s: seq<T>)
    ensures IsSubsequence(s, s)
  {
    if s != [] {
      SubsequenceOfItself(s[..|s| - 1]);
    }
  }

  /** Order counts: two distinct elements swapped are not a subsequence of the original pair. */
  lemma SwappedPairIsNoSubsequence<T>(a: T, b: T)
    requires a != b
    ensures !IsSubsequence([b, a], [a, b])
  {
    assert [a, b][..1] == [a] && [b, a][..1] == [b] && [a][..0] == [];
    assert !IsSubsequence([b], []);
    assert !IsSubsequence([b, a], []);
    assert !IsSubsequence([b, a], [a]);
  }

  /** Keeping or dropping one more element at the end keeps a subsequence a subsequence. */
  lemma SubsequenceSnoc<T>(r: seq<T>, s: seq<T>, x: T, keep: bool)
    requires IsSubsequence(r, s)
    ensures IsSubsequence(r + (if keep then [x] else []), s + [x])
  {
    var s' := s + [x];
    assert s'[..|s'| - 1] == s;
    if keep {
      var r' := r + [x];
      assert r'[..|r'| - 1] == r && r'[|r'| - 1] == s'[|s'| - 1];
    } else {
      assert r + [] == r;
    }
  }

  /** `Array.prototype.filter`: the elements that satisfy `p`, in their original order. */
  function Filter<T>(s: seq<T>, p: T -> bool): (r: seq<T>)
    ensures |r| <= |s|
    ensures forall x :: x in r ==> x in s && p(x)
    ensures forall x :: x in s ==> multiset(r)[x] == if p(x) then multiset(s)[x] else 0
    ensures IsSubsequence(r, s)
  {
    if s == [] then []
    else
      var init, x := s[..|s| - 1], s[|s| - 1];
      assert s == init + [x];
      FilterStep(init, x, p, Filter(init, p));
      Filter(init, p) + (if p(x) then [x] else [])
  }

  /** One step of `Filter`: what its contract says of a list carries over to the list extended by one element. */
  lemma FilterStep<T>(init: seq<T>, x: T, p: T -> bool, kept: seq<T>)
    requires |kept| <= |init|
    requires forall y :: y in kept ==> y in init && p(y)
    requires forall y :: y in init ==> multiset(kept)[y] == if p(y) then multiset(init)[y] else 0
    requires IsSubsequence(kept, init)
    ensures var r, s := kept + (if p(x) then [x] else []), init + [x];
      && |r| <= |s|
      && (forall y :: y in r ==> y in s && p(y))
      && (forall y :: y in s ==> multiset(r)[y] == if p(y) then multiset(s)[y] else 0)
      && IsSubsequence(r, s)
  {
    SubsequenceSnoc(kept, init, x, p(x));
    var r, s := kept + (if p(x) then [x] else []), init + [x];
    assert multiset(s) == multiset(init) + multiset{x};
    assert multiset(r) == multiset(kept) + if p(x) then multiset{x} else multiset{};
    if x !in init {
      assert multiset(kept)[x] == 0;
    }
  }

  lemma {:induction false} FilterAllKept<T>(s: seq<T>, p: T -> bool)
    requires forall j :: 0 <= j < |s| ==> p(s[j])
    ensures Filter(s, p) == s
  {
    if s != [] {
      var init, x := s[..|s| - 1], s[|s| - 1];
      assert s == init + [x];
      FilterAllKept(init, p);
      FilterSnoc(init, x, p);
    }
  }

  /** Filtering a list extended at the end filters the list, then keeps or drops the new element. */
  lemma FilterSnoc<T>(s: seq<T>, x: T, p: T -> bool)
    ensures Filter(s + [x], p) == Filter(s, p) + (if p(x) then [x] else [])
  {
    assert (s + [x])[..|s|] == s;
  }

  /** Searching a list extended at the end finds what the shorter list holds first, else the new element. */
  lemma {:induction false} FindIndexAppend<T>(s: seq<T>, x: T, p: T -> bool)
    ensures FindIndex(s + [x], p) ==
      if FindIndex(s, p).Some? then FindIndex(s, p)
      else if p(x) then Some(|s|) else None
  {
    var r := FindIndex(s + [x], p);
    if FindIndex(s, p).Some? {
      var k := FindIndex(s, p).value;
      assert (s + [x])[k] == s[k];
    } else if p(x) {
      assert (s + [x])[|s|] == x;
    }
    if r.Some? {
      assert r.value < |s| ==> (s + [x])[r.value] == s[r.value];
    }
  }
}

=== FILE: priorities.dfy ===
/** The day's three top priorities and `PriorityList.update`. */
module Priorities {
  /**
   * `update(i, val)`: a copy of the list with entry i replaced. Writing past
   * the end lengthens the copy; the gap reads as empty, as the inputs show it.
   */
  method Update(priorities: seq<string>, i: nat, val: string) returns (next: seq<string>)
    ensures |next| == if i < |priorities| then |priorities| else i + 1
    ensures next[i] == val
    ensures forall j :: 0 <= j < |priorities| && j != i ==> next[j] == priorities[j]
    ensures forall j :: |priorities| <= j < i ==> next[j] == ""
  {
    var n := if i < |priorities| then |priorities| else i + 1;
    var copy := new string[n](j requires 0 <= j < n => if j < |priorities| then priorities[j] else "");
    copy[i] := val;
    next := copy[..];
  }
}

=== FILE: slot_map.dfy ===
/**
 * How the schedule grid finds the block behind a slot: the `slotMap` index
 * built once per render, and `findBlockForSlot`, which consults it and
 * falls back to scanning for a timed block starting in the slot.
 */
module SlotLookup {
  import opened Wrappers
  import opened Dates
  import opened Lists
  import opened Blocks
  import opened Slots

  /**
   * The fallback test: a timed, not all-day block whose start lies on `day`
   * within `[slot start, next slot start)`.
   */
  function StartsInSlot(b: Block, day: int, i: int): (r: bool)
    ensures r <==> (!b.allDay && StartMoment(b).Some? && StartMoment(b).value.day == day
      && StartHour * 60 + i * SlotMinutes <= StartMoment(b).value.minute < StartHour * 60 + (i + 1) * SlotMinutes)
  {
    !b.allDay && StartMoment(b).Some?
    && StartMoment(b).value.day == day
    && Instant(SlotIndexToDate(day, i)) <= Instant(StartMoment(b).value) < Instant(SlotIndexToDate(day, i + 1))
  }

  function StartsIn(day: int, i: int): Block -> bool {
    b => StartsInSlot(b, day, i)
  }

  /**
   * The key `slotMap` files a block under: the index in a `slot-` identifier;
   * for another block that is not all-day and starts on `day`, the slot of
   * its start, clamped below at 0; otherwise none.
   */
  function SlotKey(b: Block, day: int): (r: Option<int>)
    ensures b.id.SlotId? ==> r == Some(b.id.index)
    ensures !b.id.SlotId? ==> (r.Some? <==> !b.allDay && StartMoment(b).Some? && StartMoment(b).value.day == day)
    ensures !b.id.SlotId? && r.Some? ==> 0 <= r.value < TotalSlots
    ensures !b.id.SlotId? && r.Some? && StartMoment(b).value.minute < StartHour * 60 ==> r.value == 0
    ensures !b.id.SlotId? && r.Some? && StartMoment(b).value.minute >= StartHour * 60 ==> StartsInSlot(b, day, r.value)
  {
    if b.id.SlotId? then Some(b.id.index)
    else if !b.allDay && StartMoment(b).Some? && StartMoment(b).value.day == day then
      var s := StartMoment(b).value;
      var minutesFromStart := (Hours(s) - StartHour) * 60 + Minutes(s);
      assert minutesFromStart == s.minute - StartHour * 60;
      Some(Max(0, minutesFromStart / SlotMinutes))
    else None
  }

  /** A block that is not `slot-` anchored is filed under exactly the slot its start falls in. */
  lemma {:induction false} TimedKeyIsStartSlot(b: Block, day: int, i: int)
    requires !b.id.SlotId? && 0 <= i < TotalSlots && StartsInSlot(b, day, i)
    ensures SlotKey(b, day) == Some(i)
  {
    var s := StartMoment(b).value;
    assert StartHour * 60 + i * 30 <= s.minute < StartHour * 60 + i * 30 + 30;
    assert (Hours(s) - StartHour) * 60 + Minutes(s) == s.minute - 300;
  }

  /** The index `slotMap` ends up with: the blocks inserted one by one, the first for each key kept. */
  function SlotMapOf(blocks: seq<Block>, day: int): map<int, Block>
    decreases |blocks|
  {
    if blocks == [] then map[]
    else
      var m := SlotMapOf(blocks[..|blocks| - 1], day);
      var b := blocks[|blocks| - 1];
      match SlotKey(b, day)
      case Some(k) => if k in m then m else m[k := b]
      case None => m
  }

  function HasKey(day: int, k: int): Block -> bool {
    b => SlotKey(b, day) == Some(k)
  }

  /** The index holds key k exactly when some block has that key, and then it holds the first such block in list order. */
  lemma {:induction false} SlotMapFirstWins(blocks: seq<Block>, day: int, k: int)
    ensures k in SlotMapOf(blocks, day) <==> FindIndex(blocks, HasKey(day, k)).Some?
    ensures k in SlotMapOf(blocks, day) ==> SlotMapOf(blocks, day)[k] == blocks[FindIndex(blocks, HasKey(day, k)).value]
    decreases |blocks|
  {
    if blocks != [] {
      var init := blocks[..|blocks| - 1];
      var b := blocks[|blocks| - 1];
      SlotMapFirstWins(init, day, k);
      assert blocks == init + [b];
      FindIndexAppend(init, b, HasKey(day, k));
      var m, m' := SlotMapOf(init, day), SlotMapOf(blocks, day);
      if SlotKey(b, day) == Some(k) && k !in m {
        assert m' == m[k := b];
      } else {
        assert k in m' <==> k in m;
        assert k in m ==> m'[k] == m[k];
      }
    }
  }

  /** Builds `slotMap` with a loop over the blocks, as the grid does on each render. */
  method BuildSlotMap(blocks: seq<Block>, day: int) returns (m: map<int, Block>)
    ensures m == SlotMapOf(blocks, day)
    ensures forall k :: k in m <==> FindIndex(blocks, HasKey(day, k)).Some?
    ensures forall k :: k in m ==> m[k] == blocks[FindIndex(blocks, HasKey(day, k)).value]
  {
    m := map[];
    for j := 0 to |blocks|
      invariant m == SlotMapOf(blocks[..j], day)
    {
      assert blocks[..j + 1][..j] == blocks[..j];
      var b := blocks[j];
      if b.id.SlotId? {
        var idx := b.id.index;
        if idx !in m {
          m := m[idx := b];
        }
        continue;
      }
      if !b.allDay && StartMoment(b).Some? && IsSameDay(StartMoment(b).value, Moment(day, 0)) {
        var s := StartMoment(b).value;
        var minutesFromStart := (Hours(s) - StartHour) * 60 + Minutes(s);
        var idx := Max(0, minutesFromStart / SlotMinutes);
        if idx !in m {
          m := m[idx := b];
        }
      }
    }
    assert blocks[..|blocks|] == blocks;
    forall k | true
      ensures k in m <==> FindIndex(blocks, HasKey(day, k)).Some?
      ensures k in m ==> m[k] == blocks[FindIndex(blocks, HasKey(day, k)).value]
    {
      SlotMapFirstWins(blocks, day, k);
    }
  }

  /**
   * `findBlockForSlot`: the block the index holds for the slot, else the
   * first block in list order that starts in the slot.
   */
  function FindBlockForSlot(blocks: seq<Block>, day: int, i: int): (r: Option<Block>)
    ensures r.Some? ==> r.value in blocks
    ensures FindIndex(blocks, HasKey(day, i)).Some? ==> r == Some(blocks[FindIndex(blocks, HasKey(day, i)).value])
    ensures FindIndex(blocks, HasKey(day, i)).None? && FindIndex(blocks, StartsIn(day, i)).Some? ==>
      r == Some(blocks[FindIndex(blocks, StartsIn(day, i)).value])
    ensures r.None? <==> forall j :: 0 <= j < |blocks| ==> SlotKey(blocks[j], day) != Some(i) && !StartsInSlot(blocks[j], day, i)
  {
    var m := SlotMapOf(blocks, day);
    SlotMapFirstWins(blocks, day, i);
    if i in m then
      Some(m[i])
    else match FindIndex(blocks, StartsIn(day, i))
      case Some(k) => Some(blocks[k])
      case None => None
  }

  /** A block alone in the list is found at the slot it is filed under. */
  lemma {:induction false} FindsLoneBlock(b: Block, day: int, k: int)
    requires SlotKey(b, day) == Some(k)
    ensures FindBlockForSlot([b], day, k) == Some(b)
  {
    SlotMapFirstWins([b], day, k);
  }

  /**
   * Within the grid the fallback scan only ever finds a `slot-` block whose
   * start lies outside the slot its identifier names: every other block
   * starting in the slot is already in the index.
   */
  lemma {:induction false} FallbackOnlyFindsMisplacedSlotBlocks(blocks: seq<Block>, day: int, i: int)
    requires 0 <= i < TotalSlots && i !in SlotMapOf(blocks, day)
    ensures FindBlockForSlot(blocks, day, i).Some? ==>
      FindBlockForSlot(blocks, day, i).value.id.SlotId? && FindBlockForSlot(blocks, day, i).value.id.index != i
  {
    SlotMapFirstWins(blocks, day, i);
    match FindIndex(blocks, StartsIn(day, i))
    case Some(k) =>
      var b := blocks[k];
      if !b.id.SlotId? {
        TimedKeyIsStartSlot(b, day, i);
      }
    case None =>
  }
}

=== FILE: slots.dfy ===
/**
 * The schedule grid's fixed half-hour slots: from 05:00, one row per hour
 * up to and including 23:00, two slots per row.
 */
module Slots {
  import opened Dates
  import opened Blocks

  const StartHour := 5
  const EndHour := 23
  const SlotMinutes := 30
  const TotalSlots := (EndHour - StartHour + 1) * (60 / SlotMinutes)

  function Max(a: int, b: int): int { if a >= b then a else b }
  function Min(a: int, b: int): int { if a <= b then a else b }

  /** `range(n)`: 0, 1, ..., n-1, and nothing when n is not positive. */
  function Range(n: int): (r: seq<int>)
    ensures |r| == Max(0, n)
    ensures forall k :: 0 <= k < |r| ==> r[k] == k
  {
    seq(Max(0, n), k => k)
  }

  /** `hoursRange(start, end)`: every hour from `start` to `end`, both included. */
  function HoursRange(start: int, end: int): (r: seq<int>)
    ensures |r| == Max(0, end - start + 1)
    ensures forall k :: 0 <= k < |r| ==> r[k] == start + k
  {
    var ks := Range(end - start + 1);
    seq(|ks|, k requires 0 <= k < |ks| => start + ks[k])
  }

  /** `timeToSlot`: the slot a wall-clock time falls in, clamped to the grid. */
  function TimeToSlot(hour: int, min: int): (i: int)
    ensures 0 <= i < TotalSlots
    ensures StartHour <= hour <= EndHour && (min == 0 || min == 30) ==> i == 2 * (hour - StartHour) + min / 30
    ensures (hour - StartHour) * 60 + min < 0 ==> i == 0
    ensures (hour - StartHour) * 60 + min >= TotalSlots * SlotMinutes ==> i == TotalSlots - 1
  {
    Max(0, Min(TotalSlots - 1, ((hour - StartHour) * 60 + min) / SlotMinutes))
  }

  /** The slot index of each grid cell, in the order the grid renders them: hour by hour, `:00` then `:30`. */
  function GridCells(): seq<int> {
    var hs := HoursRange(StartHour, EndHour);
    seq(2 * |hs|, j requires 0 <= j < 2 * |hs| => TimeToSlot(hs[j / 2], (j % 2) * 30))
  }

  /** The grid has 38 cells, and they show slots 0 to 37 in order, each exactly once. */
  lemma {:induction false} GridShowsEachSlotOnce()
    ensures TotalSlots == 38
    ensures GridCells() == Range(TotalSlots)
  {
    var hs := HoursRange(StartHour, EndHour);
    assert |hs| == 19;
    forall j | 0 <= j < 38
      ensures GridCells()[j] == j
    {
      assert hs[j / 2] == StartHour + j / 2;
      assert (j % 2) * 30 / 30 == j % 2;
    }
  }

  /** `slotIndexToDate`: midnight of `day` plus 05:00 plus `i` half hours, rolled over into later days. */
  function SlotIndexToDate(day: int, i: int): (t: Moment)
    ensures Instant(t) == day * MinutesPerDay + StartHour * 60 + i * SlotMinutes
    ensures 0 <= i < TotalSlots ==> t == Moment(day, StartHour * 60 + i * SlotMinutes)
    ensures i == TotalSlots ==> t == Moment(day + 1, 0)
  {
    AtMinutes(day, StartHour * 60 + i * SlotMinutes)
  }

  /** Reading the hour and minute of a slot's start back through `timeToSlot` gives the slot. */
  lemma {:induction false} SlotStartRoundTrip(day: int, i: int)
    requires 0 <= i < TotalSlots
    ensures TimeToSlot(Hours(SlotIndexToDate(day, i)), Minutes(SlotIndexToDate(day, i))) == i
  {
    var m := StartHour * 60 + i * SlotMinutes;
    assert SlotIndexToDate(day, i).minute == m;
    assert (m / 60 - StartHour) * 60 + m % 60 == i * 30;
  }

  /** Distinct slot indices start at distinct times. */
  lemma {:induction false} SlotIndexToDateInjective(day: int, i: int, j: int)
    requires SlotIndexToDate(day, i) == SlotIndexToDate(day, j)
    ensures i == j
  {
    assert Instant(SlotIndexToDate(day, i)) == Instant(SlotIndexToDate(day, j));
  }

  /** The slot a slot-anchored block starts in: a numeric `start`, else the index in its identifier. */
  function SlotStartIndex(b: Block): int
    requires b.id.SlotId?
  {
    if b.start.SlotNumber? then b.start.index else b.id.index
  }

  /** The last slot a slot-anchored block covers: a numeric `end`, else its start slot. */
  function SlotEndIndex(b: Block): int
    requires b.id.SlotId?
  {
    if b.end.SlotNumber? then b.end.index else SlotStartIndex(b)
  }

  /**
   * `ensureTimedFieldsFromSlot`: a `slot-` block gets the dates of its first
   * slot's start and of the boundary after its last slot, and is no longer
   * all-day; every other block is returned as it is.
   */
  function EnsureTimedFieldsFromSlot(day: int, b: Block): (r: Block)
    ensures !b.id.SlotId? ==> r == b
    ensures b.id.SlotId? ==> r == b.(start := r.start, end := r.end, allDay := false)
    ensures b.id.SlotId? ==> r.start.At? && r.end.At?
    ensures b.id.SlotId? ==> Instant(r.start.moment) == day * MinutesPerDay + StartHour * 60 + SlotStartIndex(b) * SlotMinutes
    ensures b.id.SlotId? ==> Instant(r.end.moment) - Instant(r.start.moment) == (SlotEndIndex(b) - SlotStartIndex(b) + 1) * SlotMinutes
  {
    if !b.id.SlotId? then b
    else
      var start := SlotIndexToDate(day, SlotStartIndex(b));
      var end := SlotIndexToDate(day, SlotEndIndex(b) + 1);
      b.(start := At(start), end := At(end), allDay := false)
  }

  /**
   * Deriving the times twice gives what deriving them once gives exactly
   * when the block covers the one slot its identifier names (or is not a
   * `slot-` block): the second pass reads the slot from the identifier.
   */
  lemma {:induction false} EnsureTimedIdempotentIff(day: int, b: Block)
    ensures EnsureTimedFieldsFromSlot(day, EnsureTimedFieldsFromSlot(day, b)) == EnsureTimedFieldsFromSlot(day, b)
        <==> !b.id.SlotId? || (SlotStartIndex(b) == b.id.index && SlotEndIndex(b) == b.id.index)
  {
    if b.id.SlotId? {
      var once := EnsureTimedFieldsFromSlot(day, b);
      var twice := EnsureTimedFieldsFromSlot(day, once);
      assert SlotStartIndex(once) == b.id.index && SlotEndIndex(once) == b.id.index;
      if twice == once {
        assert SlotIndexToDate(day, b.id.index) == SlotIndexToDate(day, SlotStartIndex(b));
        SlotIndexToDateInjective(day, b.id.index, SlotStartIndex(b));
        assert SlotIndexToDate(day, b.id.index + 1) == SlotIndexToDate(day, SlotEndIndex(b) + 1);
        SlotIndexToDateInjective(day, b.id.index + 1, SlotEndIndex(b) + 1);
      }
    }
  }
}

=== FILE: text.dfy ===
/** The string operations the planner relies on: decimal rendering, `padStart` and `trim`. */
module Text {
  predicate IsDigit(c: char) { '0' <= c <= '9' }

  predicate AllDigits(s: string) { forall k :: 0 <= k < |s| ==> IsDigit(s[k]) }

  function DigitChar(d: int): (c: char)
    requires 0 <= d < 10
    ensures IsDigit(c)
  {
    ('0' as int + d) as char
  }

  function DigitValue(c: char): (d: int)
    requires IsDigit(c)
    ensures 0 <= d < 10 && DigitChar(d) == c
  {
    c as int - '0' as int
  }

  /** `String(n)` for a natural number: its decimal digits, no leading zero. */
  function NatToString(n: nat): (s: string)
    ensures 1 <= |s| && AllDigits(s)
    ensures n < 10 <==> |s| == 1
    ensures |s| > 1 ==> s[0] != '0'
    decreases n
  {
    if n < 10 then [DigitChar(n)] else NatToString(n / 10) + [DigitChar(n % 10)]
  }

  /** `String(y)` for any integer: a minus sign before the digits of a negative number. */
  function IntToString(y: int): string {
    if y < 0 then "-" + NatToString(-y) else NatToString(y)
  }

  /** The number a string of decimal digits denotes (`Number(s)` on such a string). */
  function DigitsValue(s: string): (n: nat)
    requires AllDigits(s)
  {
    if s == [] then 0 else DigitsValue(s[..|s| - 1]) * 10 + DigitValue(s[|s| - 1])
  }

  lemma {:induction false} DigitsValueOfNatToString(n: nat)
    ensures DigitsValue(NatToString(n)) == n
    decreases n
  {
    if n >= 10 {
      var s := NatToString(n);
      assert s[..|s| - 1] == NatToString(n / 10);
      DigitsValueOfNatToString(n / 10);
    }
  }

  lemma {:induction false} NatToStringOfDigitsValue(s: string)
    requires AllDigits(s) && 1 <= |s|
    requires |s| > 1 ==> s[0] != '0'
    ensures NatToString(DigitsValue(s)) == s
    decreases |s|
  {
    var init := s[..|s| - 1];
    if |s| > 1 {
      assert init[0] == s[0];
      NatToStringOfDigitsValue(init);
      DigitsValueAtLeast(init);
      assert s == init + [s[|s| - 1]];
    }
  }

  lemma {:induction false} DigitsValueAtLeast(s: string)
    requires AllDigits(s) && 1 <= |s| && s[0] != '0'
    ensures DigitsValue(s) >= 1
    ensures |s| > 1 ==> DigitsValue(s) >= 10
    decreases |s|
  {
    if |s| > 1 {
      var init := s[..|s| - 1];
      assert init[0] == s[0];
      DigitsValueAtLeast(init);
    }
  }

  /** `String(n).padStart(2, '0')` */
  function PadStart2(s: string): (r: string)
    ensures |s| >= 2 ==> r == s
    ensures |s| < 2 ==> |r| == 2 && r[2 - |s|..] == s
  {
    if |s| >= 2 then s else seq(2 - |s|, _ => '0') + s
  }

  /** The characters `String.prototype.trim` strips: white space and line terminators. */
  predicate IsJsWhitespace(c: char) {
    c == ' ' || c == '\t' || c == '\n' || c == '\r' || c == '\U{B}' || c == '\U{C}'
    || c == '\U{A0}' || c == '\U{1680}' || ('\U{2000}' <= c <= '\U{200A}')
    || c == '\U{2028}' || c == '\U{2029}' || c == '\U{202F}' || c == '\U{205F}'
    || c == '\U{3000}' || c == '\U{FEFF}'
  }

  predicate IsBlank(s: string) { forall k :: 0 <= k < |s| ==> IsJsWhitespace(s[k]) }

  function TrimStart(s: string): (r: string)
    ensures |r| <= |s| && r == s[|s| - |r|..]
    ensures IsBlank(s[..|s| - |r|])
    ensures r == [] || !IsJsWhitespace(r[0])
  {
    if s != [] && IsJsWhitespace(s[0]) then
      var r := TrimStart(s[1..]);
      assert s[..|s| - |r|] == [s[0]] + s[1..][..|s| - 1 - |r|];
      r
    else s
  }

  function TrimEnd(s: string): (r: string)
    ensures |r| <= |s| && r == s[..|r|]
    ensures IsBlank(s[|r|..])
    ensures r == [] || !IsJsWhitespace(r[|r| - 1])
  {
    if s != [] && IsJsWhitespace(s[|s| - 1]) then
      var r := TrimEnd(s[..|s| - 1]);
      assert s[|r|..] == s[..|s| - 1][|r|..] + [s[|s| - 1]];
      r
    else s
  }

  /** `r` is `s` with a blank prefix of length `i` and a blank suffix cut off. */
  predicate IsInnerPart(r: string, s: string, i: int) {
    0 <= i <= |s| - |r| && r == s[i..i + |r|] && IsBlank(s[..i]) && IsBlank(s[i + |r|..])
  }

  /** What cutting a blank prefix (leaving `t`) and then a blank suffix (leaving `r`) from `s` yields. */
  lemma InnerPartOfTrims(s: string, t: string, r: string)
    requires |t| <= |s| && t == s[|s| - |t|..] && IsBlank(s[..|s| - |t|]) && (t == [] || !IsJsWhitespace(t[0]))
    requires |r| <= |t| && r == t[..|r|] && IsBlank(t[|r|..]) && (r == [] || !IsJsWhitespace(r[|r| - 1]))
    ensures IsInnerPart(r, s, |s| - |t|)
    ensures r == [] || (!IsJsWhitespace(r[0]) && !IsJsWhitespace(r[|r| - 1]))
    ensures s == [] || (!IsJsWhitespace(s[0]) && !IsJsWhitespace(s[|s| - 1])) ==> r == s
  {
    var i := |s| - |t|;
    assert s[i..][..|r|] == s[i..i + |r|] && s[i..][|r|..] == s[i + |r|..];
    if r != [] {
      assert r[0] == t[0];
    }
  }

  /** `String.prototype.trim` */
  function Trim(s: string): (r: string)
    ensures |r| <= |s|
    ensures r == [] || (!IsJsWhitespace(r[0]) && !IsJsWhitespace(r[|r| - 1]))
    ensures s == [] || (!IsJsWhitespace(s[0]) && !IsJsWhitespace(s[|s| - 1])) ==> r == s
    ensures exists i :: IsInnerPart(r, s, i)
  {
    var t := TrimStart(s);
    var r := TrimEnd(t);
    InnerPartOfTrims(s, t, r);
    r
  }

  /** `trim()` gives the empty string exactly for the strings made only of white space. */
  lemma {:induction false} TrimEmptyIffBlank(s: string)
    ensures Trim(s) == "" <==> IsBlank(s)
  {
    var t := TrimStart(s);
    if !IsBlank(s) {
      assert t != [];
    }
  }
}

=== FILE: wrappers.dfy ===
/** The optional value used wherever the planner looks something up and may find nothing. */
module Wrappers {
  datatype Option<+T> = None | Some(value: T)
}
